=== FILE: README.md ===
# Storefront request handling and category page, in Dafny

This project models the core of a small e-commerce storefront, written in Dafny.
It covers two parts of the system.

The first is the Express/Mongoose backend (`backend/index.js`). Each protected
route is one atomic step over an abstract store. The store holds products, and
users with their carts. The modelled parts are:

- the authorization gate (`authenticateToken`, `isAdmin`) and `/login`;
- the cart ledger (`/getcart`, `/addtocart`, `/removefromcart`, `/updatecart`,
  `/clearcart`);
- the rating aggregator (`/product/:id/rate`);
- the catalog listing (`/allproducts`);
- the product schema's field constraints;
- product deletion, which shows how deleted products are dropped from the cart view.

The second is the React category page (`frontend/src/pages/ShopCategory.jsx`).
It filters products by category, sorts them and cuts them into pages of 12. It
also shows the "Showing a-b" line and Previous/Next navigation, all as pure
functions and a small state machine.

Files (one module each):

- `wrappers.dfy` (`Wrappers`): `Option` and `Result`.
- `text.dfy` (`Text`): ASCII lower-casing, literal substring search, and `trim`.
- `sequences.dfy` (`Sequences`): order-preserving filter and a stable insertion sort by a real key.
- `paging.dfy` (`Paging`): `Math.ceil` of a quotient, `Array.prototype.slice`, page windows.
- `entities.dfy` (`Entities`): the product, user and store documents, and the error responses.
- `cart.dfy` (`CartLedger`), `ratings.dfy` (`RatingAggregator`), `catalog.dfy` (`CatalogQuery`),
  `auth.dfy` (`AuthGate`), `schema.dfy` (`ProductSchema`): the handlers.
- `server.dfy` (`Server`): gate plus dispatch as one step, and the store invariant it keeps.
- `shop_category.dfy` (`ShopCategory`): the category page.

Some collaborators cannot be seen, so they are parameters:

- `resolve(token)` stands for `jwt.verify` plus reading `user.id` from the payload. It is `None` when verification throws or the payload has no `user`. A token whose `user` has no id resolves to an id no user has, which answers "User not found".
- `sign(id)` stands for `jwt.sign`.
- `passwordMatches(plain, hash)` stands for `bcrypt.compare`.
- `now` stands for `Date.now()`.
- `fieldKey(field, product)` stands for the database's ordering by a named field.

Numbers are exact. Prices, rating values, the average and cart quantities are `real`.

## Model

| member | source | states |
|---|---|---|
| `CartLedger.GetCart` | backend/index.js:481-486 | The returned cart holds exactly the stored entries whose product still exists, with their stored quantities. |
| `CartLedger.AddToCart` | backend/index.js:507-517 | The request succeeds exactly when the product exists; a missing product fails with 404 "Product not found". Otherwise the item's quantity becomes the old quantity (0 if absent) plus one, and every other entry is unchanged. |
| `CartLedger.RemoveFromCart` | backend/index.js:539-554 | The request succeeds exactly when the product exists; a missing product fails with 404. A positive quantity drops by exactly one and the key is kept, even at 0. An absent or zero entry leaves the cart as it was. |
| `CartLedger.UpdateCart` | backend/index.js:574-595 | The request succeeds exactly when the quantity is non-negative and the product exists. A negative quantity fails with 400 before the product lookup. A missing product then fails with 404. Quantity 0 deletes the key, a positive quantity is stored exactly, and other entries are unchanged. |
| `CartLedger.ClearCart` | backend/index.js:615-616 | The cart becomes empty whatever it held. |
| `CartLedger.EditsPreserveNonNegative` | backend/index.js:548-595 | Adding, updating and clearing never make a quantity negative. A remove makes one negative exactly when it starts from a quantity strictly between 0 and 1. |
| `CartLedger.WholeCartsStayNonNegative` | backend/index.js:507-595 | A cart of whole, non-negative quantities stays whole and non-negative under add and remove. After an update it stays whole exactly when the stored quantity is whole. |
| `CartLedger.HalfUnitGoesNegative` | backend/index.js:548-594 | `/updatecart` with quantity 0.5 stores 0.5, and `/removefromcart` then stores -0.5. |
| `CartLedger.AddThenRemove` | backend/index.js:507-554 | Adding and then removing an item restores the cart if and only if the item was already in it. Otherwise the item is left mapped to 0. |
| `CartLedger.AddTwiceRemoveOnce` | backend/index.js:507-554 | Two adds then one remove leave the quantity one above where it started, and nothing else changes. |
| `CartLedger.RemoveLastUnitShowsZero` | backend/index.js:481-552 | Removing the last unit leaves a 0 entry, and `/getcart` reports it. |
| `CartLedger.UpdateToZeroDropsItem` | backend/index.js:591-592 | After setting a quantity of 0, the item is absent from the returned cart. |
| `RatingAggregator.FindIndex` | backend/index.js:704-706 | Returns -1 exactly when the user has no rating. Otherwise it returns the first index holding the user's rating. |
| `RatingAggregator.Submit` | backend/index.js:708-724 | An existing rating by the user is overwritten at the same index, and its old review is kept when the new review is falsy. Every other entry is unchanged. Without an existing rating, the new one is appended. |
| `RatingAggregator.Rate` | backend/index.js:688-728 | The request succeeds exactly when the rating is in 1..5 and the product exists. A rating outside 1..5 fails with 400 before the lookup, and a missing product fails with 404. On success there is at least one rating, the average times the count equals the sum, and only the ratings and average change. |
| `RatingAggregator.TotalRatings` | backend/index.js:727 | The `reduce` loop computes the sum of all rating values. |
| `RatingAggregator.SumAppend` | backend/index.js:718-727 | Appending a rating adds its value to the total. |
| `RatingAggregator.SumReplace` | backend/index.js:710-727 | Replacing a rating changes the total by the new value minus the old one. |
| `RatingAggregator.SubmitKeepsUniqueRaters` | backend/index.js:704-724 | If each user had at most one rating before a submission, the same holds after it, and the submitter then has one. |
| `RatingAggregator.RatePreservesWellRated` | backend/index.js:704-728 | A successful rating keeps unique raters, values in 1..5 and average equal to the mean. The new sum is the old sum plus the new value, minus any replaced value. |
| `RatingAggregator.RateTwiceBySameUser` | backend/index.js:684-743 | The same user rating a product 5 and then 3 leaves one rating with average 3. |
| `CatalogQuery.Matching` | backend/index.js:357-363 | Keeps exactly the catalog products with the requested category (if given) whose name contains the search text, ignoring case (if given). Each match appears as often as the catalog holds it, and nothing else appears. |
| `CatalogQuery.MatchingKeepsOrder` | backend/index.js:371 | Matching two parts of the catalog gives the matches of the first part followed by those of the second, so the matches keep the catalog's natural order. |
| `Sequences.FilterMultiplicity` | backend/index.js:357-376 | The query filter keeps every product it accepts exactly as many times as the catalog holds it, and drops every other product entirely. |
| `CatalogQuery.Split` | backend/index.js:367 | `split(':')` gives at least one piece and no piece contains ':'. |
| `CatalogQuery.JoinSplit` | backend/index.js:367 | Joining the pieces with ':' gives back the sort parameter. |
| `CatalogQuery.ParseSort` | backend/index.js:365-369 | An empty sort means no sort. The field is the first piece, and the order is descending exactly when the second piece is `desc`. |
| `CatalogQuery.Ordered` | backend/index.js:371-372 | The ordered result is a permutation of the matches. |
| `CatalogQuery.UnsortedKeepsNaturalOrder` | backend/index.js:365-372 | Without a sort parameter the matches come back exactly in their natural order. |
| `CatalogQuery.SkipLimit` | backend/index.js:373-374 | A positive limit keeps at most that many products. A limit of 0 keeps everything after the skip. Otherwise the result is the slice from the skip to skip plus the absolute value of the limit. |
| `CatalogQuery.ListProducts` | backend/index.js:353-391 | Fails, always with 500, exactly when the skip is negative or the sort names a field the store refuses (empty, or starting with `$`). `total` counts every match. Every listed product is a match. With limit 0 the whole ordered list is returned and `pages` is null. Otherwise `pages` is the ceiling of total divided by limit. |
| `CatalogQuery.PositiveLimitListing` | backend/index.js:371-382 | With a positive limit, the page number is at least 1. The listing is that page's slice of the ordered matches, holds at most `limit` products, and `pages` is the page count. |
| `CatalogQuery.UnsortedListingIsWindowOfMatches` | backend/index.js:357-374 | Without a sort and with a positive limit, the listing is page `page` of the matches in natural order: `Window(Matching(catalog, q), page, limit)`. |
| `CatalogQuery.TotalIgnoresPaging` | backend/index.js:376 | `total` depends only on the category and search, not on the sort, page or limit. |
| `CatalogQuery.NoMatchesIsEmptyListing` | backend/index.js:371-383 | Zero matches gives a successful empty listing with total 0. |
| `CatalogQuery.SortDirection` | backend/index.js:366-368 | `desc` orders by non-increasing field value, and any other order by non-decreasing value. |
| `CatalogQuery.EmptySortFieldIsServerError` | backend/index.js:365-389 | `sort=:desc` names the empty field, so the listing answers 500 whatever the catalog. |
| `CatalogQuery.SecondPageOfFifteen` | backend/index.js:355-382 | Fifteen matches with `page=2&limit=10` give 5 products, total 15 and 2 pages. |
| `Paging.CeilQuotient` | backend/index.js:382 | The result is `Math.ceil(a / b)` for either sign of `b`, stated without division. |
| `AuthGate.Authenticate` | backend/index.js:185-205 | A missing token, an unverifiable token and an unknown user each give their own 401. Otherwise the caller is the token's user. |
| `AuthGate.Authorize` | backend/index.js:208-213 | Authentication failures pass through unchanged. On admin routes a non-admin gets 403. Success always names an existing user. |
| `AuthGate.FindByEmail` | backend/index.js:278 | Finds a user exactly when some stored email equals the given email trimmed and lower-cased. That is the cast the user schema's `trim` and `lowercase` options (lines 147-148) apply to the query. |
| `AuthGate.Login` | backend/index.js:267-307 | Empty fields give 400 "All fields are required". Login succeeds exactly when the user whose stored email is the trimmed, lower-cased given email has a matching password, and then returns that user's token and fields. Every other failure is 400 "Invalid email or password". |
| `AuthGate.LoginFailuresIndistinguishable` | backend/index.js:278-291 | An unknown email and a wrong password get identical responses. |
| `AuthGate.LoginIgnoresCaseAndSpace` | backend/index.js:278 | Two non-empty spellings of an email that differ only in letter case and surrounding white space get the same login answer. |
| `AuthGate.MixedCaseLoginSucceeds` | backend/index.js:278-307 | A user stored as `al@x.io` signs in with ` Al@X.io` and the right password. |
| `AuthGate.AdminRoutesRefuseCustomers` | backend/index.js:208-213 | A signed-in customer passes user routes and is refused with 403 on admin routes. |
| `ProductSchema.NoErrorsIffAcceptable` | backend/index.js:76-107 | Every path's validator passes exactly when all the field constraints hold. |
| `ProductSchema.AcceptedInputConforms` | backend/index.js:76-107 | The product built from acceptable input satisfies every schema constraint. |
| `ProductSchema.Validate` | backend/index.js:75-108 | Succeeds exactly on acceptable input. The product it builds conforms to the schema, with a trimmed name, stock defaulting to 0, no ratings and average 0. Failure carries at least one message. |
| `Server.Handle` | backend/index.js:185-213 | 401 exactly when authentication fails, and 403 exactly when a customer calls an admin route. A non-200 response never changes the store. |
| `Server.HandlePreservesValid` | backend/index.js:502-728 | Every request that stores no fractional quantity keeps these true: unique emails, whole and non-negative cart quantities, and a per-product invariant (one rating per user, values in 1..5, average equal to the mean). A successful `/updatecart` with a fractional quantity breaks the invariant. |
| `Server.CartRequestsAreIsolated` | backend/index.js:475-630 | Cart routes change only the authenticated caller's cart. Products, other users and the caller's other fields stay the same. `/getcart` changes nothing. |
| `Server.RateRequestsAreIsolated` | backend/index.js:684-730 | The rating route changes only the rated product. |
| `Server.DeletedProductsLeaveCartView` | backend/index.js:451-486 | After a product is deleted, stored carts still hold its key, but `/getcart` no longer shows it. |
| `Sequences.SortByKey` | frontend/src/pages/ShopCategory.jsx:36-39 | The sort is a permutation of its input and is non-decreasing by key. |
| `Sequences.InsertKeepsSorted` | frontend/src/pages/ShopCategory.jsx:36-39 | Inserting one element into a list sorted by key keeps it sorted. |
| `Sequences.SortByKeyIsStable` | frontend/src/pages/ShopCategory.jsx:36-39 | For every key value, the elements with that key appear in the sorted result in the same order as in the input. Together with the two facts above, this makes the result exactly what a stable `Array.prototype.sort` returns. |
| `ShopCategory.FilterCategory` | frontend/src/pages/ShopCategory.jsx:29-31 | Keeps exactly the present entries whose non-empty category equals the page category, ignoring case. |
| `ShopCategory.FilterCategoryAppend` | frontend/src/pages/ShopCategory.jsx:29-31 | The filter distributes over concatenation, so kept items keep their order. |
| `ShopCategory.PriceOrderedListIsKept` | frontend/src/pages/ShopCategory.jsx:36-39 | A list already in the chosen price order is shown unchanged. |
| `ShopCategory.SortProductsIsStable` | frontend/src/pages/ShopCategory.jsx:33-47 | Under `default`, `price-low` and `price-high`, the products of each price keep the order they had in the filtered list. |
| `ShopCategory.SortProducts` | frontend/src/pages/ShopCategory.jsx:33-47 | The result is a permutation of the filtered list. `price-low` is non-decreasing and `price-high` non-increasing by price, with a missing price counting as 0. `default` is the identity. |
| `ShopCategory.TotalPages` | frontend/src/pages/ShopCategory.jsx:57 | `totalPages` is `ceil(n / 12)`. |
| `ShopCategory.CurrentProducts` | frontend/src/pages/ShopCategory.jsx:54-56 | For a page p of at least 1, the page is `sorted[(p-1)*12 .. min(p*12, n)]` and holds at most 12 items. |
| `ShopCategory.PagesPartitionSorted` | frontend/src/pages/ShopCategory.jsx:54-57 | Every page from 1 to `totalPages` is non-empty, and all pages together reproduce the sorted list. |
| `ShopCategory.PageInRangeShowsProducts` | frontend/src/pages/ShopCategory.jsx:54-57 | An in-range page of a non-empty list shows at least one product, and its range lies within 1..n. |
| `ShopCategory.ShownRange` | frontend/src/pages/ShopCategory.jsx:102 | When n > 0 and the page is in range, the displayed range lies within 1..n. |
| `ShopCategory.ShownRangeCountsPage` | frontend/src/pages/ShopCategory.jsx:102 | The displayed range numbers exactly the items of the current page. |
| `ShopCategory.Previous` | frontend/src/pages/ShopCategory.jsx:169 | Previous goes back one page, but never below 1. |
| `ShopCategory.Next` | frontend/src/pages/ShopCategory.jsx:195 | Next goes forward one page, but never past `totalPages`. From the last page or beyond, it lands on `totalPages`. |
| `ShopCategory.Step` | frontend/src/pages/ShopCategory.jsx:11-13 | A change of category resets the page to 1, and a sort change keeps the page. With one page or none, the buttons do nothing. With two or more pages, Prev and Next apply `Previous` and `Next`, and the button labelled i+1 goes to page i+1. |
| `ShopCategory.StepKeepsPageInRange` | frontend/src/pages/ShopCategory.jsx:166-195 | Once the page is in 1..max(1, totalPages), every event keeps it there. |
| `ShopCategory.Render` | frontend/src/pages/ShopCategory.jsx:15-166 | Shows loading without a product list and the empty state exactly when the filter is empty. Otherwise the grid is page `page` (12 per page) of the filtered list in the chosen sort order, the line "Showing a-b" is `ShownRange` of the filtered count, the grid has at most 12 items, controls exactly when `totalPages > 1`, and an in-range page gives a non-empty grid with a range inside 1..n. |

## Where the code departs from the intended behaviour (the model follows the code)

In each of these cases the intended behaviour and the code differ, and the
model follows the code:

- A cart is meant never to hold a zero quantity. But `/removefromcart` keeps
  the key at 0, and `/getcart` returns it (`CartLedger.RemoveLastUnitShowsZero`).
  So "add then remove restores the cart" holds only when the item was already
  in the cart (`CartLedger.AddThenRemove`).
- A rating is meant to be an integer 1–5. The handler only checks
  `rating < 1 || rating > 5`, so 3.5 is accepted. Ratings are `real` here.
- Unknown categories and sort fields are meant to be validation errors. The
  code passes them to the database. An unknown category just matches nothing.
  An unknown sort field is sorted on. Only a field name the database refuses
  (empty, or starting with `$`) makes the listing fail, with 500 rather than 400.
- A cart quantity is meant to be a non-negative count. `/updatecart` checks
  only `quantity < 0` and `quantity === 0`, so it stores 0.5. A later
  `/removefromcart` sees `0.5 > 0` and stores -0.5
  (`CartLedger.HalfUnitGoesNegative`). Carts stay non-negative only while
  every stored quantity is whole (`CartLedger.WholeCartsStayNonNegative`).
- Expired, malformed and unverifiable tokens are meant to be told apart. The
  code answers all three with the same 401 "Invalid token".

## Left out

- Token signing and verification, and password hashing and comparison: these are cryptographic libraries, so they are the function parameters `resolve`, `sign` and `passwordMatches`.
- `/signup`, `/profile`, `/changepassword`, `/admin/stats`, `/product/:id`, `/addproduct`, `PUT /product/:id`, `/newcollections`, `/popularinwomen` and the unreachable duplicate `/newcollections` route: they are outside the modelled core. The schema constraints that `/addproduct` relies on are modelled in `ProductSchema`.
- The read-modify-write race between concurrent requests: each request is one atomic step.
- Floating-point behaviour: division, `toFixed` and price arithmetic use exact reals instead.
- The `$regex` search: the search text is treated as a literal, ASCII case-insensitive substring. Regular-expression metacharacters are not interpreted.
- The database's ordering of documents: it is the parameter `fieldKey`, and equal keys keep the natural order. MongoDB does not promise that tie order.
- Non-numeric values of `page`, `limit`, `quantity` and `rating` (strings, `NaN`, a missing field), and non-integer `page` and `limit`: `page` and `limit` are integers, and `quantity` and `rating` are reals.
- Malformed ids that make `findById` throw: a malformed product id would give a 500 from the cart handlers, and a malformed id in a token would give 401 "Invalid token". Ids here are just strings looked up in maps.
- Mongoose validation on save for carts: a handler's store write always succeeds.
- The `name` sort of the category page (`localeCompare`): its collation depends on the locale. `SortBy` has no `name` case.
- Case mapping beyond ASCII in `toLowerCase` (in the category filter, the name search and the lower-casing of login emails), and the `Object.values` fallback for a product list that is not an array.
- The category page's single render after a category change that still uses the old page number, before the reset effect runs: the reset is part of the same step.
- The email format regex and the user schema's other constraints: they are outside the modelled core.
- CartLedger: quantities are exact reals. In the code they are JavaScript numbers, so past 2^53 `quantity + 1` rounds back. There, for example, `AddThenRemove`'s restoring of the cart fails.
- CartLedger.EditsPreserveNonNegative: does not promise that a remove keeps the cart non-negative. In the code, a remove from a stored quantity strictly between 0 and 1 (say 0.5, stored by `/updatecart`) leaves a negative quantity.
- Server.HandlePreservesValid: promises the store invariant only for requests that store no fractional quantity. In the code, `/updatecart` with 0.5 stores 0.5, and a later `/removefromcart` leaves -0.5 in the cart.
- ProductSchema.Validate: lengths count Unicode code points. Mongoose's `minlength` and `maxlength` count UTF-16 code units, so a character outside the Basic Multilingual Plane counts 1 here and 2 in the code.
- CatalogQuery.ListProducts: of the database's field-path rules for sort fields, only the empty name and a leading `$` are modelled. An empty dotted component (such as `a..b`), a `$` at the start of a later component, and the special `$natural` order are not, and such fields sort by `fieldKey` here.
- CatalogQuery.ListProducts: a limit of 0 gives `pages == None`. This covers both `Infinity` and `NaN`, which JSON writes alike as `null`.

=== FILE: auth.dfy ===
/** The authorization gate (`authenticateToken`, `isAdmin`) and `/login`.
    Token verification, token signing and password comparison are cryptographic
    collaborators passed in as functions:
    - `resolve(token)` is the user id a valid token carries, `None` when the
      token is expired, malformed or badly signed, or its payload has no `user`
      object (all of which answer "Invalid token"). A valid token whose `user`
      has no id resolves to an id no user has, so it answers "User not found";
    - `sign(id)` is the token issued for a user id;
    - `passwordMatches(plain, hash)` is the bcrypt comparison. */
module AuthGate {
  import opened Wrappers
  import opened Entities
  import opened Text

  /** How deep into the gate a route goes: any signed-in user, or admins only. */
  datatype Access = Authenticated | AdminOnly

  /** `authenticateToken`: the id of the user the `auth-token` header belongs to.
      An empty header is treated as missing (it is falsy). */
  function Authenticate(users: map<UserId, User>, token: string, resolve: string -> Option<UserId>): (r: Result<UserId, Error>)
    ensures token == "" <==> r == Failure(MissingToken)
    ensures token != "" && resolve(token).None? <==> r == Failure(InvalidToken)
    ensures token != "" && resolve(token).Some? && resolve(token).value !in users <==> r == Failure(UnknownUser)
    ensures r.Success? <==> token != "" && resolve(token).Some? && resolve(token).value in users
    ensures r.Success? ==> r.value == resolve(token).value
    ensures r.Failure? ==> r.error.status == 401
  {
    if token == "" then Failure(MissingToken)
    else match resolve(token)
      case None => Failure(InvalidToken)
      case Some(id) => if id in users then Success(id) else Failure(UnknownUser)
  }

  /** `authenticateToken` followed, on admin routes, by `isAdmin`. */
  function Authorize(users: map<UserId, User>, token: string, resolve: string -> Option<UserId>, access: Access): (r: Result<UserId, Error>)
    ensures Authenticate(users, token, resolve).Failure? ==> r == Authenticate(users, token, resolve)
    ensures r.Success? <==>
      && Authenticate(users, token, resolve).Success?
      && (access == AdminOnly ==> users[Authenticate(users, token, resolve).value].role == Admin)
    ensures r.Success? ==> r == Authenticate(users, token, resolve) && r.value in users
    ensures r.Failure? && Authenticate(users, token, resolve).Success? ==> r == Failure(NotAdmin)
    ensures r.Failure? ==> r.error.status == 401 || r.error.status == 403
  {
    var id :- Authenticate(users, token, resolve);
    if access == AdminOnly && users[id].role != Admin then Failure(NotAdmin) else Success(id)
  }

  /** What a successful login answers: a fresh token and the user's public fields. */
  datatype Session = Session(token: string, id: UserId, name: string, email: string, role: Role)

  /** The value the user schema's `trim` and `lowercase` options make of an
      email. Mongoose applies them to query filters as well as to stored
      documents, so `/login` looks up this key. */
  function EmailKey(email: string): string {
    Lower(Trim(email))
  }

  /** `Users.findOne({ email })`: the one user whose stored email is the given
      email trimmed and lower-cased. */
  function FindByEmail(users: map<UserId, User>, email: string): (r: Option<UserId>)
    requires EmailsUnique(users)
    ensures r.Some? <==> exists id :: id in users && users[id].email == EmailKey(email)
    ensures r.Some? ==> r.value in users && users[r.value].email == EmailKey(email)
  {
    var key := EmailKey(email);
    if exists id :: id in users && users[id].email == key then
      var id :| id in users && users[id].email == key;
      Some(id)
    else None
  }

  /** `/login`. An unknown email and a wrong password fail with the same error. */
  function Login(users: map<UserId, User>, email: string, password: string,
                 passwordMatches: (string, string) -> bool, sign: UserId -> string): (r: Result<Session, Error>)
    requires EmailsUnique(users)
    ensures email == "" || password == "" <==> r == Failure(MissingFields)
    ensures r.Success? <==>
      && email != "" && password != ""
      && exists id :: id in users && users[id].email == EmailKey(email) && passwordMatches(password, users[id].password)
    ensures r.Success? ==>
      var id := r.value.id;
      && id in users && users[id].email == EmailKey(email)
      && r.value == Session(sign(id), id, users[id].name, users[id].email, users[id].role)
    ensures r.Failure? ==> r.error == MissingFields || r.error == BadCredentials
  {
    if email == "" || password == "" then Failure(MissingFields)
    else match FindByEmail(users, email)
      case None => Failure(BadCredentials)
      case Some(id) =>
        if !passwordMatches(password, users[id].password) then Failure(BadCredentials)
        else Success(Session(sign(id), id, users[id].name, users[id].email, users[id].role))
  }

  /** A login with an unknown email and a login with a known email but the wrong
      password get identical answers, so a caller cannot tell which happened. */
  lemma LoginFailuresIndistinguishable(users: map<UserId, User>, passwordMatches: (string, string) -> bool,
                                       sign: UserId -> string, unknown: string, p1: string,
                                       known: UserId, typed: string, p2: string)
    requires EmailsUnique(users)
    requires unknown != "" && p1 != "" && typed != "" && p2 != ""
    requires forall id :: id in users ==> users[id].email != EmailKey(unknown)
    requires known in users && users[known].email == EmailKey(typed) && !passwordMatches(p2, users[known].password)
    ensures Login(users, unknown, p1, passwordMatches, sign) == Login(users, typed, p2, passwordMatches, sign)
    ensures Login(users, unknown, p1, passwordMatches, sign) == Failure(BadCredentials)
  {
  }

  /** Two non-empty spellings of one email that differ only in letter case and
      surrounding white space log in alike. */
  lemma LoginIgnoresCaseAndSpace(users: map<UserId, User>, passwordMatches: (string, string) -> bool,
                                 sign: UserId -> string, a: string, b: string, password: string)
    requires EmailsUnique(users)
    requires a != "" && b != "" && EmailKey(a) == EmailKey(b)
    ensures Login(users, a, password, passwordMatches, sign) == Login(users, b, password, passwordMatches, sign)
  {
  }

  /** A user stored as `al@x.io` signs in as ` Al@X.io`. */
  lemma MixedCaseLoginSucceeds(passwordMatches: (string, string) -> bool, sign: UserId -> string)
    requires passwordMatches("secret", "hash")
    ensures var users := map["u1" := User("Al", "al@x.io", "hash", Customer, map[])];
      Login(users, " Al@X.io", "secret", passwordMatches, sign)
        == Success(Session(sign("u1"), "u1", "Al", "al@x.io", Customer))
  {
    MixedCaseKey();
    var users := map["u1" := User("Al", "al@x.io", "hash", Customer, map[])];
    assert users.Keys == {"u1"};
    assert FindByEmail(users, " Al@X.io") == Some("u1");
  }

  /** The email key of the example login. */
  lemma MixedCaseKey()
    ensures EmailKey(" Al@X.io") == "al@x.io"
  {
    TrimLeadingSpace();
    LowerMixedCase();
  }

  /** `trim` drops the example's leading space and nothing else. */
  lemma TrimLeadingSpace()
    ensures Trim(" Al@X.io") == "Al@X.io"
  {
    var e := " Al@X.io";
    assert !IsSpace(e[1]) && IsSpace(e[0]);
    assert TrimStart(e[1..]) == e[1..];
    assert TrimStart(e) == "Al@X.io";
    assert !IsSpace("Al@X.io"[6]);
  }

  /** Lower-casing the example's letters. */
  lemma LowerMixedCase()
    ensures Lower("Al@X.io") == "al@x.io"
  {
    var l := Lower("Al@X.io");
    assert l[0] == 'a' && l[1] == 'l' && l[2] == '@' && l[3] == 'x' && l[4] == '.' && l[5] == 'i' && l[6] == 'o';
  }

  /** A signed-in customer passes the gate of user routes unchanged and is
      refused with 403 on admin routes. */
  lemma AdminRoutesRefuseCustomers(users: map<UserId, User>, token: string, resolve: string -> Option<UserId>)
    requires Authenticate(users, token, resolve).Success?
    requires users[Authenticate(users, token, resolve).value].role == Customer
    ensures Authorize(users, token, resolve, AdminOnly) == Failure(NotAdmin)
    ensures Authorize(users, token, resolve, Authenticated) == Authenticate(users, token, resolve)
  {
  }
}

=== FILE: cart.dfy ===
/** The cart handlers (`/getcart`, `/addtocart`, `/removefromcart`, `/updatecart`,
    `/clearcart`) as pure edits of one user's cart. `products` is the set of ids
    the product collection currently holds. */
module CartLedger {
  import opened Wrappers
  import opened Entities

  /** `cartData.get(id) || 0`: the stored quantity, or 0 when the key is absent. */
  function Quantity(cart: Cart, id: ProductId): real {
    if id in cart then cart[id] else 0.0
  }

  /** No quantity in the cart is negative. */
  ghost predicate NonNegative(cart: Cart) {
    forall id :: id in cart ==> cart[id] >= 0.0
  }

  /** `x` is a whole number. */
  predicate IsWhole(x: real) {
    x == x.Floor as real
  }

  /** Every quantity in the cart is a whole number. */
  ghost predicate WholeQuantities(cart: Cart) {
    forall id :: id in cart ==> IsWhole(cart[id])
  }

  /** `a` and `b` hold the same entries for every key other than `id`. */
  ghost predicate AgreeExcept(a: Cart, b: Cart, id: ProductId) {
    forall k :: k != id ==> (k in a <==> k in b) && (k in a ==> a[k] == b[k])
  }

  /** The cart `/getcart` returns: the stored entries whose product still exists,
      with their quantities. Storage itself is not changed. */
  function GetCart(products: set<ProductId>, cart: Cart): (view: Cart)
    ensures view.Keys == cart.Keys * products
    ensures forall id :: id in view ==> view[id] == cart[id]
  {
    map id | id in cart && id in products :: cart[id]
  }

  /** `/addtocart`: fails when the product does not exist; otherwise raises the
      item's quantity by one (an absent item starts from 0). */
  function AddToCart(products: set<ProductId>, cart: Cart, id: ProductId): (r: Result<Cart, Error>)
    ensures r.Success? <==> id in products
    ensures id !in products <==> r == Failure(ProductNotFound)
    ensures r.Success? ==>
      && r.value.Keys == cart.Keys + {id}
      && r.value[id] == Quantity(cart, id) + 1.0
      && AgreeExcept(r.value, cart, id)
  {
    if id !in products then Failure(ProductNotFound)
    else Success(cart[id := Quantity(cart, id) + 1.0])
  }

  /** `/removefromcart`: fails when the product does not exist; otherwise lowers a
      positive quantity by one, keeping the key even when it reaches 0, and leaves
      an absent or zero entry alone. */
  function RemoveFromCart(products: set<ProductId>, cart: Cart, id: ProductId): (r: Result<Cart, Error>)
    ensures r.Success? <==> id in products
    ensures id !in products <==> r == Failure(ProductNotFound)
    ensures r.Success? && Quantity(cart, id) > 0.0 ==>
      && r.value.Keys == cart.Keys
      && r.value[id] == cart[id] - 1.0
      && AgreeExcept(r.value, cart, id)
    ensures r.Success? && Quantity(cart, id) <= 0.0 ==> r.value == cart
  {
    if id !in products then Failure(ProductNotFound)
    else
      var current := Quantity(cart, id);
      if current > 0.0 then Success(cart[id := current - 1.0]) else Success(cart)
  }

  /** `/updatecart`: a negative quantity fails before the product is looked up; a
      missing product fails next; quantity 0 deletes the entry and a positive
      quantity is stored as given. */
  function UpdateCart(products: set<ProductId>, cart: Cart, id: ProductId, quantity: real): (r: Result<Cart, Error>)
    ensures r.Success? <==> quantity >= 0.0 && id in products
    ensures quantity < 0.0 <==> r == Failure(NegativeQuantity)
    ensures quantity >= 0.0 && id !in products <==> r == Failure(ProductNotFound)
    ensures r.Success? ==> AgreeExcept(r.value, cart, id)
    ensures r.Success? && quantity == 0.0 ==> r.value.Keys == cart.Keys - {id}
    ensures r.Success? && quantity > 0.0 ==> r.value.Keys == cart.Keys + {id} && r.value[id] == quantity
  {
    if quantity < 0.0 then Failure(NegativeQuantity)
    else if id !in products then Failure(ProductNotFound)
    else if quantity == 0.0 then Success(cart - {id})
    else Success(cart[id := quantity])
  }

  /** `/clearcart`: the cart becomes empty, whatever it held. */
  function ClearCart(cart: Cart): (r: Cart)
    ensures r.Keys == {}
  {
    map[]
  }

  /** Adding, updating and clearing keep quantities non-negative. Removing does
      too, except from a quantity strictly between 0 and 1, which only
      `/updatecart` can have stored: that one drops below 0. */
  lemma EditsPreserveNonNegative(products: set<ProductId>, cart: Cart, id: ProductId, quantity: real)
    requires NonNegative(cart)
    ensures AddToCart(products, cart, id).Success? ==> NonNegative(AddToCart(products, cart, id).value)
    ensures RemoveFromCart(products, cart, id).Success? ==>
      (NonNegative(RemoveFromCart(products, cart, id).value) <==> !(0.0 < Quantity(cart, id) < 1.0))
    ensures UpdateCart(products, cart, id, quantity).Success? ==> NonNegative(UpdateCart(products, cart, id, quantity).value)
    ensures NonNegative(ClearCart(cart))
  {
    var r := RemoveFromCart(products, cart, id);
    if r.Success? && 0.0 < Quantity(cart, id) < 1.0 {
      assert r.value[id] < 0.0;
    }
  }

  /** A cart of whole, non-negative quantities stays so under every edit that
      stores a whole quantity, which is the cart part of the store invariant. */
  lemma WholeCartsStayNonNegative(products: set<ProductId>, cart: Cart, id: ProductId, quantity: real)
    requires NonNegative(cart) && WholeQuantities(cart)
    ensures var r := AddToCart(products, cart, id);
      r.Success? ==> NonNegative(r.value) && WholeQuantities(r.value)
    ensures var r := RemoveFromCart(products, cart, id);
      r.Success? ==> NonNegative(r.value) && WholeQuantities(r.value)
    ensures var r := UpdateCart(products, cart, id, quantity);
      r.Success? ==> NonNegative(r.value) && (WholeQuantities(r.value) <==> IsWhole(quantity))
  {
    var q := Quantity(cart, id);
    assert IsWhole(q);
    assert q == q.Floor as real;
    assert IsWhole(q + 1.0) by {
      assert (q + 1.0).Floor == q.Floor + 1;
    }
    assert q > 0.0 ==> q >= 1.0;
    assert IsWhole(q - 1.0) by {
      assert (q - 1.0).Floor == q.Floor - 1;
    }
    var u := UpdateCart(products, cart, id, quantity);
    if u.Success? && quantity > 0.0 {
      assert u.value[id] == quantity;
    }
  }

  /** A fractional quantity drives a cart negative: `/updatecart` stores 0.5,
      which passes both of its checks, and `/removefromcart` then stores -0.5. */
  lemma HalfUnitGoesNegative()
    ensures
      var stored := UpdateCart({"p"}, map[], "p", 0.5);
      var removed := RemoveFromCart({"p"}, stored.value, "p");
      stored == Success(map["p" := 0.5]) && removed == Success(map["p" := -0.5]) && !NonNegative(removed.value)
  {
    var stored := map["p" := 0.5];
    assert UpdateCart({"p"}, map[], "p", 0.5) == Success(stored);
    assert Quantity(stored, "p") == 0.5;
    assert stored["p" := 0.5 - 1.0] == map["p" := -0.5];
  }

  /** Adding an item and then removing it restores the cart exactly when the item
      was already in it: removal never deletes the key that adding created. */
  lemma AddThenRemove(products: set<ProductId>, cart: Cart, id: ProductId)
    requires NonNegative(cart) && id in products
    ensures RemoveFromCart(products, AddToCart(products, cart, id).value, id) == Success(cart) <==> id in cart
    ensures id !in cart ==> RemoveFromCart(products, AddToCart(products, cart, id).value, id) == Success(cart[id := 0.0])
  {
    var added := AddToCart(products, cart, id).value;
    assert Quantity(added, id) > 0.0;
    var removed := RemoveFromCart(products, added, id).value;
    if id in cart {
      assert removed == cart by {
        assert removed.Keys == cart.Keys;
        forall k | k in cart ensures removed[k] == cart[k] {
        }
      }
    } else {
      assert removed[id] == 0.0;
      assert removed != cart;
      assert removed == cart[id := 0.0];
    }
  }

  /** Two additions followed by one removal leave one more item than before. */
  lemma AddTwiceRemoveOnce(products: set<ProductId>, cart: Cart, id: ProductId)
    requires NonNegative(cart) && id in products
    ensures
      var once := AddToCart(products, cart, id).value;
      var twice := AddToCart(products, once, id).value;
      var r := RemoveFromCart(products, twice, id);
      r.Success? && Quantity(r.value, id) == Quantity(cart, id) + 1.0 && AgreeExcept(r.value, cart, id)
  {
  }

  /** Removing the last unit of an item leaves a zero entry that `/getcart` still
      reports: a cart can show an item with quantity 0. */
  lemma RemoveLastUnitShowsZero()
    ensures
      var r := RemoveFromCart({"p"}, map["p" := 1.0], "p");
      r.Success? && GetCart({"p"}, r.value) == map["p" := 0.0]
  {
  }

  /** Setting a quantity of 0 is the one edit that drops an item from the
      returned cart. */
  lemma UpdateToZeroDropsItem(products: set<ProductId>, cart: Cart, id: ProductId)
    requires id in products
    ensures id !in GetCart(products, UpdateCart(products, cart, id, 0.0).value)
  {
  }
}

=== FILE: catalog.dfy ===
/** The product listing (`/allproducts`): category filter, name search, sort,
    skip/limit pagination and the page count. */
module CatalogQuery {
  import opened Wrappers
  import opened Entities
  import opened Text
  import opened Sequences
  import opened Paging

  /** The query string. An empty `category`, `search` or `sort` is an absent
      (falsy) parameter; `page` and `limit` default to 1 and 10. */
  datatype Query = Query(category: string, search: string, sort: string, page: Option<int>, limit: Option<int>)

  datatype Direction = Ascending | Descending

  /** A parsed `field:direction` sort parameter. */
  datatype SortSpec = SortSpec(field: string, direction: Direction)

  /** The response body: one page of products, the number of matches, and the
      page count (`None` where `Math.ceil` yields Infinity or NaN, which JSON
      writes as `null`). */
  datatype Listing = Listing(products: seq<Product>, total: nat, pages: Option<int>)

  function PageOf(q: Query): int {
    q.page.GetOr(1)
  }

  function LimitOf(q: Query): int {
    q.limit.GetOr(10)
  }

  /** The number of matches skipped before the page starts. */
  function Skip(q: Query): int {
    (PageOf(q) - 1) * LimitOf(q)
  }

  /** The query document: exact category, and case-insensitive name search. */
  predicate Matches(q: Query, p: Product) {
    && (q.category == "" || p.category == q.category)
    && (q.search == "" || ContainsIgnoreCase(p.name, q.search))
  }

  /** The matching products, in the collection's natural order: each matching
      document as often as the collection holds it, and nothing else. */
  function Matching(catalog: seq<Product>, q: Query): (r: seq<Product>)
    ensures forall i :: 0 <= i < |r| ==> r[i] in catalog && Matches(q, r[i])
    ensures forall i :: 0 <= i < |catalog| ==>
      multiset(r)[catalog[i]] == if Matches(q, catalog[i]) then multiset(catalog)[catalog[i]] else 0
  {
    FilterMultiplicity(catalog, p => Matches(q, p));
    Filter(catalog, p => Matches(q, p))
  }

  /** Matching a collection in two parts matches each part in turn: the matches
      keep the collection's natural order. */
  lemma MatchingKeepsOrder(a: seq<Product>, b: seq<Product>, q: Query)
    ensures Matching(a + b, q) == Matching(a, q) + Matching(b, q)
    ensures Matching([], q) == []
    ensures forall p :: Matching([p], q) == if Matches(q, p) then [p] else []
  {
    FilterAppend(a, b, p => Matches(q, p));
  }

  /** The text before the first ':' of `s`, all of `s` when it has none. */
  function Field(s: string): (r: string)
    ensures |r| <= |s| && r == s[..|r|]
    ensures ':' !in r
    ensures |r| < |s| ==> s[|r|] == ':'
  {
    if |s| == 0 || s[0] == ':' then "" else [s[0]] + Field(s[1..])
  }

  /** `s.split(':')`. */
  function Split(s: string): (parts: seq<string>)
    ensures |parts| >= 1
    ensures forall i :: 0 <= i < |parts| ==> ':' !in parts[i]
    decreases |s|
  {
    var f := Field(s);
    if |f| == |s| then [s] else [f] + Split(s[|f| + 1..])
  }

  /** The pieces joined back with ':' separators. */
  function Join(parts: seq<string>): string
    requires |parts| >= 1
  {
    if |parts| == 1 then parts[0] else parts[0] + ":" + Join(parts[1..])
  }

  /** Splitting at ':' loses nothing: joining the pieces gives the input back. */
  lemma {:induction false} JoinSplit(s: string)
    ensures Join(Split(s)) == s
    decreases |s|
  {
    var f := Field(s);
    if |f| < |s| {
      var rest := s[|f| + 1..];
      JoinSplit(rest);
      SplitAtColon(s);
      JoinCons(f, Split(rest));
      assert s == f + ":" + rest by {
        assert s == s[..|f|] + [s[|f|]] + rest;
      }
    }
  }

  /** A string with a ':' splits into its field and the split of the rest. */
  lemma SplitAtColon(s: string)
    requires |Field(s)| < |s|
    ensures Split(s) == [Field(s)] + Split(s[|Field(s)| + 1..])
  {
  }

  /** Joining a first piece onto at least one more puts a ':' between them. */
  lemma JoinCons(f: string, rest: seq<string>)
    requires |rest| >= 1
    ensures Join([f] + rest) == f + ":" + Join(rest)
  {
    assert ([f] + rest)[1..] == rest;
  }

  /** `const [field, order] = sort.split(':')`; only an `order` of exactly
      `desc` sorts descending. An empty parameter means no sort. */
  function ParseSort(sort: string): (r: Option<SortSpec>)
    ensures sort == "" <==> r == None
    ensures r.Some? ==> r.value.field == Split(sort)[0]
    ensures r.Some? ==>
      (r.value.direction == Descending <==> |Split(sort)| >= 2 && Split(sort)[1] == "desc")
  {
    if sort == "" then None
    else
      var parts := Split(sort);
      Some(SortSpec(parts[0], if |parts| >= 2 && parts[1] == "desc" then Descending else Ascending))
  }

  /** A field name the store accepts in a sort document. An empty name and a
      name starting with `$` are refused, so the query throws. */
  predicate SortableField(field: string) {
    field != "" && field[0] != '$'
  }

  /** The query's `sort` names a field the store refuses to sort by. */
  predicate SortRefused(q: Query) {
    ParseSort(q.sort).Some? && !SortableField(ParseSort(q.sort).value.field)
  }

  /** The matches in the order the store returns them: natural order without a
      sort, else stably sorted by the requested field. `fieldKey` stands for the
      store's ordering of documents by a named field. */
  function Ordered(matches: seq<Product>, spec: Option<SortSpec>, fieldKey: (string, Product) -> real): (r: seq<Product>)
    ensures multiset(r) == multiset(matches)
    ensures forall i :: 0 <= i < |r| ==> r[i] in matches
  {
    var r := OrderedBy(matches, spec, fieldKey);
    assert forall i :: 0 <= i < |r| ==> r[i] in matches by {
      forall i | 0 <= i < |r| ensures r[i] in matches {
        assert multiset(r)[r[i]] > 0;
      }
    }
    r
  }

  function OrderedBy(matches: seq<Product>, spec: Option<SortSpec>, fieldKey: (string, Product) -> real): (r: seq<Product>)
    ensures multiset(r) == multiset(matches)
  {
    match spec
    case None => matches
    case Some(SortSpec(field, Ascending)) => SortByKey(matches, p => fieldKey(field, p))
    case Some(SortSpec(field, Descending)) => SortByKey(matches, p => -fieldKey(field, p))
  }

  /** Without a sort the store returns the matches in their natural order. */
  lemma UnsortedKeepsNaturalOrder(matches: seq<Product>, fieldKey: (string, Product) -> real)
    ensures Ordered(matches, None, fieldKey) == matches
  {
  }

  /** `.skip(k).limit(n)` of the driver: a limit of 0 means no limit and a
      negative limit returns at most its absolute value. */
  function SkipLimit(s: seq<Product>, skip: nat, limit: int): (r: seq<Product>)
    ensures limit > 0 ==> |r| <= limit
    ensures forall i :: 0 <= i < |r| ==> r[i] in s
    ensures limit == 0 ==> r == (if skip <= |s| then s[skip..] else [])
    ensures limit != 0 ==> r == s[Min(skip, |s|)..Min(skip + if limit > 0 then limit else -limit, |s|)]
  {
    var rest := if skip <= |s| then s[skip..] else [];
    if limit == 0 then rest
    else
      var n := if limit > 0 then limit else -limit;
      rest[..Min(n, |rest|)]
  }

  /** `/allproducts`. A negative skip or a refused sort field makes the query
      throw, which the handler reports as a server error; otherwise the page of
      matches, the match count and `Math.ceil(total / limit)`. */
  function ListProducts(catalog: seq<Product>, q: Query, fieldKey: (string, Product) -> real): (r: Result<Listing, Error>)
    ensures Skip(q) < 0 || SortRefused(q) <==> r.Failure?
    ensures r.Failure? ==> r.error == ServerError
    ensures r.Success? ==> r.value.total == |Matching(catalog, q)|
    ensures r.Success? ==>
      forall i :: 0 <= i < |r.value.products| ==> r.value.products[i] in catalog && Matches(q, r.value.products[i])
    ensures r.Success? && LimitOf(q) == 0 ==>
      r.value.products == Ordered(Matching(catalog, q), ParseSort(q.sort), fieldKey) && r.value.pages == None
    ensures r.Success? && LimitOf(q) != 0 ==>
      r.value.pages.Some? && IsCeiling(r.value.pages.value, r.value.total, LimitOf(q))
  {
    var skip := Skip(q);
    if skip < 0 || SortRefused(q) then Failure(ServerError)
    else
      var matches := Matching(catalog, q);
      var ordered := Ordered(matches, ParseSort(q.sort), fieldKey);
      var limit := LimitOf(q);
      var products := SkipLimit(ordered, skip, limit);
      Success(Listing(products, |matches|, if limit == 0 then None else Some(CeilQuotient(|matches|, limit))))
  }

  /** With a positive limit the listing is page `page` of the ordered matches,
      holds at most `limit` products, and `pages` is the page count. */
  lemma {:induction false} PositiveLimitListing(catalog: seq<Product>, q: Query, fieldKey: (string, Product) -> real)
    requires LimitOf(q) > 0 && Skip(q) >= 0 && !SortRefused(q)
    ensures PageOf(q) >= 1
    ensures ListProducts(catalog, q, fieldKey).Success?
    ensures |ListProducts(catalog, q, fieldKey).value.products| <= LimitOf(q)
    ensures ListProducts(catalog, q, fieldKey).value.products
         == Window(Ordered(Matching(catalog, q), ParseSort(q.sort), fieldKey), PageOf(q), LimitOf(q))
    ensures ListProducts(catalog, q, fieldKey).value.pages
         == Some(PageCount(ListProducts(catalog, q, fieldKey).value.total, LimitOf(q)))
  {
    PageArithmetic(q);
    ListingIsSkipLimit(catalog, q, fieldKey);
    ListingPageCount(catalog, q, fieldKey);
    var ordered := Ordered(Matching(catalog, q), ParseSort(q.sort), fieldKey);
    SkipLimitIsWindow(ordered, Skip(q), PageOf(q), LimitOf(q));
  }

  lemma ListingIsSkipLimit(catalog: seq<Product>, q: Query, fieldKey: (string, Product) -> real)
    requires Skip(q) >= 0 && !SortRefused(q)
    ensures var r := ListProducts(catalog, q, fieldKey);
      var ordered := Ordered(Matching(catalog, q), ParseSort(q.sort), fieldKey);
      r.Success? && r.value.products == SkipLimit(ordered, Skip(q), LimitOf(q))
  {
  }

  lemma ListingPageCount(catalog: seq<Product>, q: Query, fieldKey: (string, Product) -> real)
    requires LimitOf(q) > 0 && Skip(q) >= 0 && !SortRefused(q)
    ensures var r := ListProducts(catalog, q, fieldKey);
      r.Success? && r.value.pages == Some(PageCount(r.value.total, LimitOf(q)))
  {
  }

  /** A non-negative skip with a positive limit starts page `page >= 1`. */
  lemma PageArithmetic(q: Query)
    requires LimitOf(q) > 0 && Skip(q) >= 0
    ensures PageOf(q) >= 1
    ensures Skip(q) == (PageOf(q) - 1) * LimitOf(q) && Skip(q) + LimitOf(q) == PageOf(q) * LimitOf(q)
  {
  }

  /** Skipping `(p - 1) * l` and keeping `l > 0` items is page `p` of size `l`. */
  lemma SkipLimitIsWindow(s: seq<Product>, skip: nat, p: nat, l: int)
    requires p >= 1 && l > 0 && skip == (p - 1) * l && skip + l == p * l
    ensures SkipLimit(s, skip, l) == Window(s, p, l)
  {
  }

  /** Without a sort, page `page` lists the matches of that page in the
      collection's natural order. */
  lemma UnsortedListingIsWindowOfMatches(catalog: seq<Product>, q: Query, fieldKey: (string, Product) -> real)
    requires q.sort == "" && LimitOf(q) > 0 && PageOf(q) >= 1
    ensures var r := ListProducts(catalog, q, fieldKey);
      r.Success? && r.value.products == Window(Matching(catalog, q), PageOf(q), LimitOf(q))
  {
    assert Skip(q) >= 0 by {
      assert PageOf(q) - 1 >= 0;
    }
    PositiveLimitListing(catalog, q, fieldKey);
    UnsortedKeepsNaturalOrder(Matching(catalog, q), fieldKey);
  }

  /** The match count does not depend on the sort, page or limit requested. */
  lemma TotalIgnoresPaging(catalog: seq<Product>, q: Query, q': Query, fieldKey: (string, Product) -> real)
    requires q.category == q'.category && q.search == q'.search
    requires Skip(q) >= 0 && Skip(q') >= 0 && !SortRefused(q) && !SortRefused(q')
    ensures ListProducts(catalog, q, fieldKey).Success? && ListProducts(catalog, q', fieldKey).Success?
    ensures ListProducts(catalog, q, fieldKey).value.total == ListProducts(catalog, q', fieldKey).value.total
  {
    FilterCongruent(catalog, p => Matches(q, p), p => Matches(q', p));
  }

  /** No match is not an error: an empty page with total 0. */
  lemma NoMatchesIsEmptyListing(catalog: seq<Product>, q: Query, fieldKey: (string, Product) -> real)
    requires Skip(q) >= 0 && !SortRefused(q)
    requires forall i :: 0 <= i < |catalog| ==> !Matches(q, catalog[i])
    ensures var r := ListProducts(catalog, q, fieldKey);
      r.Success? && r.value.products == [] && r.value.total == 0
  {
    FilterNone(catalog, p => Matches(q, p));
  }

  /** A descending sort orders the page's source by non-increasing field value;
      any other direction by non-decreasing value. */
  lemma SortDirection(matches: seq<Product>, sort: string, fieldKey: (string, Product) -> real)
    requires sort != ""
    ensures var spec := ParseSort(sort).value;
      var r := Ordered(matches, Some(spec), fieldKey);
      && (spec.direction == Descending ==>
            forall i, j :: 0 <= i < j < |r| ==> fieldKey(spec.field, r[i]) >= fieldKey(spec.field, r[j]))
      && (spec.direction == Ascending ==>
            forall i, j :: 0 <= i < j < |r| ==> fieldKey(spec.field, r[i]) <= fieldKey(spec.field, r[j]))
  {
    var spec := ParseSort(sort).value;
    var r := Ordered(matches, Some(spec), fieldKey);
    if spec.direction == Descending {
      var key := (p: Product) => -fieldKey(spec.field, p);
      assert Sorted(r, key);
      forall i, j | 0 <= i < j < |r| ensures fieldKey(spec.field, r[i]) >= fieldKey(spec.field, r[j]) {
        assert key(r[i]) <= key(r[j]);
      }
    } else {
      var key := (p: Product) => fieldKey(spec.field, p);
      assert Sorted(r, key);
      forall i, j | 0 <= i < j < |r| ensures fieldKey(spec.field, r[i]) <= fieldKey(spec.field, r[j]) {
        assert key(r[i]) <= key(r[j]);
      }
    }
  }

  /** Fifteen matches listed with `page=2&limit=10`: five products on two pages. */
  lemma SecondPageOfFifteen(catalog: seq<Product>, fieldKey: (string, Product) -> real)
    requires |catalog| == 15
    ensures var r := ListProducts(catalog, Query("", "", "", Some(2), Some(10)), fieldKey);
      r.Success? && |r.value.products| == 5 && r.value.total == 15 && r.value.pages == Some(2)
  {
    var q := Query("", "", "", Some(2), Some(10));
    UnsortedListingIsWindowOfMatches(catalog, q, fieldKey);
    ListingPageCount(catalog, q, fieldKey);
    FilterAll(catalog, p => Matches(q, p));
    assert Matching(catalog, q) == catalog;
    assert |Window(catalog, 2, 10)| == 5;
    assert PageCount(15, 10) == 2;
  }

  /** `sort=:desc` names the empty field: the store refuses it, whatever the
      catalog, and the listing answers 500. */
  lemma EmptySortFieldIsServerError(catalog: seq<Product>, fieldKey: (string, Product) -> real)
    ensures ListProducts(catalog, Query("", "", ":desc", None, None), fieldKey) == Failure(ServerError)
  {
    assert Split(":desc")[0] == "";
  }
}

=== FILE: entities.dfy ===
/** The documents the server keeps, and the error responses its handlers send. */
module Entities {
  import opened Wrappers

  /** Document identifiers, compared as their string form. */
  type ProductId = string
  type UserId = string

  /** A user's cart: product id to quantity (a Mongoose `Map` of numbers). A
      quantity is any number `/updatecart` was given, so it need not be whole. */
  type Cart = map<ProductId, real>

  /** The `role` enum of a user: `'user'` or `'admin'`. */
  datatype Role = Customer | Admin

  /** One entry of a product's `ratings` array. `date` is the submission clock. */
  datatype Rating = Rating(user: UserId, rating: real, review: Option<string>, date: int)

  /** A product document. Prices are exact reals rather than doubles. */
  datatype Product = Product(
    name: string,
    category: string,
    price: real,
    description: string,
    image: string,
    stock: int,
    ratings: seq<Rating>,
    averageRating: real)

  /** A user document. `password` holds the stored hash. */
  datatype User = User(name: string, email: string, password: string, role: Role, cartData: Cart)

  /** The durable store: the two collections the handlers read and write. */
  datatype Store = Store(products: map<ProductId, Product>, users: map<UserId, User>)

  /** An error response: HTTP status and the `error` message of its body. */
  datatype Error = Error(status: int, message: string)

  const ProductNotFound := Error(404, "Product not found")
  const ServerError := Error(500, "Server error")
  const MissingToken := Error(401, "Please authenticate using a valid token")
  const InvalidToken := Error(401, "Invalid token")
  const UnknownUser := Error(401, "User not found")
  const NotAdmin := Error(403, "Access denied. Admin privileges required.")
  const NegativeQuantity := Error(400, "Quantity cannot be negative")
  const RatingOutOfRange := Error(400, "Rating must be between 1 and 5")
  const MissingFields := Error(400, "All fields are required")
  const BadCredentials := Error(400, "Invalid email or password")

  /** No two users share an email (the unique index on `email`). */
  ghost predicate EmailsUnique(users: map<UserId, User>) {
    forall a, b :: a in users && b in users && users[a].email == users[b].email ==> a == b
  }
}

=== FILE: paging.dfy ===
/** Page arithmetic: `Math.ceil` of a quotient, `Array.prototype.slice`, and the
    fixed-size windows a paginated listing shows. */
module Paging {

  function Min(a: int, b: int): int {
    if a <= b then a else b
  }

  function Max(a: int, b: int): int {
    if a >= b then a else b
  }

  /** `r` is `Math.ceil(a / b)`: the least integer not below the exact
      quotient, stated without division (multiplying by a negative `b` flips
      the comparisons). */
  ghost predicate IsCeiling(r: int, a: int, b: int) {
    && (b > 0 ==> (r - 1) * b < a <= r * b)
    && (b < 0 ==> r * b <= a < (r - 1) * b)
  }

  /** `Math.ceil(a / b)` for a count `a` and a non-zero divisor `b`. */
  function CeilQuotient(a: nat, b: int): (r: int)
    requires b != 0
    ensures IsCeiling(r, a, b)
  {
    if b > 0 then PageCount(a, b)
    else
      var c := -b;
      var q := a / c;
      assert q * c <= a < (q + 1) * c;
      -q
  }

  /** The number of pages of `size` items needed for `n` items. */
  function PageCount(n: nat, size: nat): (r: nat)
    requires size > 0
    ensures r * size >= n
    ensures (r - 1) * size < n
  {
    (n + size - 1) / size
  }

  /** Index normalisation of `Array.prototype.slice`: a negative index counts
      from the end, and the result is clamped into `0..n`. */
  function SliceIndex(i: int, n: nat): (r: nat)
    ensures r <= n
    ensures 0 <= i <= n ==> r == i
    ensures i > n ==> r == n
  {
    if i < 0 then Max(n + i, 0) else Min(i, n)
  }

  /** `s.slice(start, end)`. */
  function JsSlice<T>(s: seq<T>, start: int, end: int): seq<T> {
    var a := SliceIndex(start, |s|);
    var b := SliceIndex(end, |s|);
    if a < b then s[a..b] else []
  }

  /** Page `p` (counted from 1) of `s` cut into pages of `size` items. */
  function Window<T>(s: seq<T>, p: nat, size: nat): (r: seq<T>)
    requires p >= 1 && size > 0
    ensures |r| <= size
    ensures r == s[Min((p - 1) * size, |s|)..Min(p * size, |s|)]
  {
    var a := Min((p - 1) * size, |s|);
    var b := Min(p * size, |s|);
    assert a <= b by {
      assert (p - 1) * size <= p * size;
    }
    assert b - a <= size by {
      assert p * size - (p - 1) * size == size;
    }
    s[a..b]
  }

  /** Pages 1 through `k`, one after the other. */
  function Pages<T>(s: seq<T>, size: nat, k: nat): seq<T>
    requires size > 0
  {
    if k == 0 then [] else Pages(s, size, k - 1) + Window(s, k, size)
  }

  /** The first `k` pages are exactly the first `k * size` items. */
  lemma {:induction false} PagesArePrefix<T>(s: seq<T>, size: nat, k: nat)
    requires size > 0
    ensures Pages(s, size, k) == s[..Min(k * size, |s|)]
  {
    if k > 0 {
      PagesArePrefix(s, size, k - 1);
      assert (k - 1) * size <= k * size;
      var a := Min((k - 1) * size, |s|);
      var b := Min(k * size, |s|);
      assert s[..a] + s[a..b] == s[..b];
    }
  }

  /** Concatenating every page reproduces the whole sequence. */
  lemma AllPagesCover<T>(s: seq<T>, size: nat)
    requires size > 0
    ensures Pages(s, size, PageCount(|s|, size)) == s
  {
    var k := PageCount(|s|, size);
    PagesArePrefix(s, size, k);
    assert Min(k * size, |s|) == |s|;
  }

  /** Every page from 1 to the page count holds at least one item. */
  lemma WindowNonEmpty<T>(s: seq<T>, p: nat, size: nat)
    requires size > 0 && 1 <= p <= PageCount(|s|, size)
    ensures |Window(s, p, size)| > 0
  {
    var k := PageCount(|s|, size);
    assert (p - 1) * size <= (k - 1) * size;
    assert (p - 1) * size < p * size;
  }
}

=== FILE: ratings.dfy ===
/** The rating handler (`/product/:id/rate`): validation, one rating per user,
    and the recomputed mean. */
module RatingAggregator {
  import opened Wrappers
  import opened Entities

  /** The sum of the rating values, left to right (the `reduce` of the handler). */
  function Sum(rs: seq<Rating>): real {
    if |rs| == 0 then 0.0 else rs[0].rating + Sum(rs[1..])
  }

  /** The arithmetic mean of the rating values, 0 when there are none (the
      schema default of `averageRating`). */
  function Mean(rs: seq<Rating>): real {
    if |rs| == 0 then 0.0 else Sum(rs) / (|rs| as real)
  }

  /** No user appears twice among the ratings. */
  ghost predicate UniqueRaters(rs: seq<Rating>) {
    forall i, j :: 0 <= i < j < |rs| ==> rs[i].user != rs[j].user
  }

  /** Every rating value lies in 1..5. */
  ghost predicate InRange(rs: seq<Rating>) {
    forall i :: 0 <= i < |rs| ==> 1.0 <= rs[i].rating <= 5.0
  }

  /** The invariant the handler keeps for a product's ratings. */
  ghost predicate WellRated(p: Product) {
    UniqueRaters(p.ratings) && InRange(p.ratings) && p.averageRating == Mean(p.ratings)
  }

  /** A review is used only when it is truthy: absent and empty reviews are not. */
  predicate Truthy(review: Option<string>) {
    review.Some? && review.value != ""
  }

  /** `findIndex` by user: the first index holding a rating by `u`, or -1. */
  function FindIndex(rs: seq<Rating>, u: UserId): (r: int)
    ensures -1 <= r < |rs|
    ensures r == -1 <==> forall i :: 0 <= i < |rs| ==> rs[i].user != u
    ensures r >= 0 ==> rs[r].user == u && forall i :: 0 <= i < r ==> rs[i].user != u
  {
    if |rs| == 0 then -1
    else if rs[0].user == u then 0
    else
      var k := FindIndex(rs[1..], u);
      if k == -1 then -1 else k + 1
  }

  /** The rating list after user `u` submits `rating`: an earlier rating by `u` is
      overwritten in place (keeping its review when the new one is falsy);
      otherwise the new rating is appended. */
  function Submit(rs: seq<Rating>, u: UserId, rating: real, review: Option<string>, now: int): (r: seq<Rating>)
    ensures FindIndex(rs, u) >= 0 ==>
      var i := FindIndex(rs, u);
      && |r| == |rs|
      && r[i] == Rating(u, rating, if Truthy(review) then review else rs[i].review, now)
      && forall j :: 0 <= j < |rs| && j != i ==> r[j] == rs[j]
    ensures FindIndex(rs, u) == -1 ==> r == rs + [Rating(u, rating, review, now)]
  {
    var i := FindIndex(rs, u);
    if i != -1 then
      rs[i := Rating(u, rating, if Truthy(review) then review else rs[i].review, now)]
    else
      rs + [Rating(u, rating, review, now)]
  }

  /** `/product/:id/rate` on an existing or missing product: a rating outside
      1..5 fails before the lookup, a missing product fails next, and otherwise
      the product gets the submitted rating and the mean of all its ratings. */
  function Rate(products: map<ProductId, Product>, id: ProductId, u: UserId, rating: real,
                review: Option<string>, now: int): (r: Result<Product, Error>)
    ensures r.Success? <==> 1.0 <= rating <= 5.0 && id in products
    ensures (rating < 1.0 || rating > 5.0) <==> r == Failure(RatingOutOfRange)
    ensures 1.0 <= rating <= 5.0 && id !in products <==> r == Failure(ProductNotFound)
    ensures r.Success? ==>
      && |r.value.ratings| >= 1
      && r.value.averageRating * (|r.value.ratings| as real) == Sum(r.value.ratings)
      && r.value.averageRating == Mean(r.value.ratings)
      && r.value.ratings == Submit(products[id].ratings, u, rating, review, now)
      && r.value == products[id].(ratings := r.value.ratings, averageRating := r.value.averageRating)
  {
    if rating < 1.0 || rating > 5.0 then Failure(RatingOutOfRange)
    else if id !in products then Failure(ProductNotFound)
    else
      var p := products[id];
      var rs := Submit(p.ratings, u, rating, review, now);
      assert |rs| >= 1;
      Success(p.(ratings := rs, averageRating := Sum(rs) / (|rs| as real)))
  }

  /** `ratings.reduce((sum, r) => sum + r.rating, 0)` as the loop it is. */
  method TotalRatings(rs: seq<Rating>) returns (total: real)
    ensures total == Sum(rs)
  {
    total := 0.0;
    var i := 0;
    while i < |rs|
      invariant 0 <= i <= |rs|
      invariant total == Sum(rs[..i])
    {
      SumAppend(rs[..i], rs[i]);
      assert rs[..i + 1] == rs[..i] + [rs[i]];
      total := total + rs[i].rating;
      i := i + 1;
    }
    assert rs[..i] == rs;
  }

  /** Appending a rating adds its value to the sum. */
  lemma {:induction false} SumAppend(rs: seq<Rating>, x: Rating)
    ensures Sum(rs + [x]) == Sum(rs) + x.rating
  {
    if |rs| > 0 {
      assert (rs + [x])[1..] == rs[1..] + [x];
      SumAppend(rs[1..], x);
    }
  }

  /** Overwriting one rating changes the sum by the difference of the two values. */
  lemma {:induction false} SumReplace(rs: seq<Rating>, i: nat, x: Rating)
    requires i < |rs|
    ensures Sum(rs[i := x]) == Sum(rs) - rs[i].rating + x.rating
  {
    if i > 0 {
      assert rs[i := x][1..] == rs[1..][i - 1 := x];
      SumReplace(rs[1..], i - 1, x);
    }
  }

  /** A submission keeps every user to at most one rating. */
  lemma SubmitKeepsUniqueRaters(rs: seq<Rating>, u: UserId, rating: real, review: Option<string>, now: int)
    requires UniqueRaters(rs)
    ensures UniqueRaters(Submit(rs, u, rating, review, now))
    ensures FindIndex(Submit(rs, u, rating, review, now), u) >= 0
  {
    var r := Submit(rs, u, rating, review, now);
    var k := FindIndex(rs, u);
    if k == -1 {
      assert forall i :: 0 <= i < |rs| ==> r[i] == rs[i];
      assert r[|rs|].user == u;
    }
  }

  /** A successful submission keeps the product well rated, and the new sum
      follows from the old one: the value replaced is subtracted, the new value added. */
  lemma RatePreservesWellRated(products: map<ProductId, Product>, id: ProductId, u: UserId,
                               rating: real, review: Option<string>, now: int)
    requires id in products && WellRated(products[id])
    requires Rate(products, id, u, rating, review, now).Success?
    ensures WellRated(Rate(products, id, u, rating, review, now).value)
    ensures
      var old_ := products[id].ratings;
      var k := FindIndex(old_, u);
      Sum(Rate(products, id, u, rating, review, now).value.ratings)
        == Sum(old_) + rating - (if k >= 0 then old_[k].rating else 0.0)
  {
    var rs := products[id].ratings;
    var k := FindIndex(rs, u);
    var r := Submit(rs, u, rating, review, now);
    SubmitKeepsUniqueRaters(rs, u, rating, review, now);
    if k >= 0 {
      assert r == rs[k := r[k]];
      SumReplace(rs, k, r[k]);
    } else {
      SumAppend(rs, r[|rs|]);
    }
  }

  /** The same user rating a fresh product 5 and then 3 leaves one rating and a
      mean of 3. */
  lemma RateTwiceBySameUser(p: Product, id: ProductId, u: UserId)
    requires p.ratings == []
    ensures
      var first := Rate(map[id := p], id, u, 5.0, None, 1);
      var second := Rate(map[id := first.value], id, u, 3.0, None, 2);
      && second.Success?
      && |second.value.ratings| == 1
      && second.value.averageRating == 3.0
  {
    var first := Rate(map[id := p], id, u, 5.0, None, 1);
    assert first.value.ratings == [Rating(u, 5.0, None, 1)];
    var second := Rate(map[id := first.value], id, u, 3.0, None, 2);
    assert FindIndex(first.value.ratings, u) == 0;
    assert second.value.ratings == [Rating(u, 3.0, None, 2)];
    assert Sum(second.value.ratings) == 3.0 + Sum([]);
  }
}

=== FILE: schema.dfy ===
/** The field constraints of the product schema, checked when a product is
    created: required fields, the trimmed name's length, the category enum,
    non-negative price and stock, and the description's length. */
module ProductSchema {
  import opened Wrappers
  import opened Entities
  import opened Text

  /** The seven values of the `category` enum. */
  const Categories: set<string> := {"Electronics", "Clothing", "Books", "Home & Kitchen", "Toys", "Sports", "Other"}

  /** The submitted form fields; `None` is a field left out of the form. */
  datatype ProductInput = ProductInput(
    name: Option<string>,
    category: Option<string>,
    price: Option<real>,
    description: Option<string>,
    image: Option<string>,
    stock: Option<int>)

  /** A stored product satisfies every schema constraint. */
  ghost predicate Conforms(p: Product) {
    && 2 <= |p.name| <= 100 && Trim(p.name) == p.name
    && p.category in Categories
    && p.price >= 0.0
    && 10 <= |p.description| <= 1000
    && p.image != ""
    && p.stock >= 0
  }

  /** The input is accepted: every required field is present and non-empty and
      every bound holds (the name counted after trimming, a missing stock
      counted as its default 0). */
  ghost predicate Acceptable(input: ProductInput) {
    && input.name.Some? && 2 <= |Trim(input.name.value)| <= 100
    && input.category.Some? && input.category.value in Categories
    && input.price.Some? && input.price.value >= 0.0
    && input.description.Some? && 10 <= |input.description.value| <= 1000
    && input.image.Some? && input.image.value != ""
    && input.stock.GetOr(0) >= 0
  }

  /** Trimming twice is trimming once. */
  lemma TrimIdempotent(s: string)
    ensures Trim(Trim(s)) == Trim(s)
  {
    var a := TrimStart(s);
    var b := TrimEnd(a);
    assert TrimStart(b) == b;
    assert TrimEnd(b) == b;
  }

  /** The error of the `name` path: the first failing validator, in schema order. */
  function NameError(name: Option<string>): Option<string> {
    if name.None? || Trim(name.value) == "" then Some("Product name is required")
    else if |Trim(name.value)| < 2 then Some("Product name must be at least 2 characters long")
    else if |Trim(name.value)| > 100 then Some("Product name cannot exceed 100 characters")
    else None
  }

  function CategoryError(category: Option<string>): Option<string> {
    if category.None? || category.value == "" then Some("Product category is required")
    else if category.value !in Categories then
      Some("`" + category.value + "` is not a valid enum value for path `category`.")
    else None
  }

  function PriceError(price: Option<real>): Option<string> {
    if price.None? then Some("Product price is required")
    else if price.value < 0.0 then Some("Price cannot be negative")
    else None
  }

  function DescriptionError(description: Option<string>): Option<string> {
    if description.None? || description.value == "" then Some("Product description is required")
    else if |description.value| < 10 then Some("Description must be at least 10 characters long")
    else if |description.value| > 1000 then Some("Description cannot exceed 1000 characters")
    else None
  }

  function ImageError(image: Option<string>): Option<string> {
    if image.None? || image.value == "" then Some("Product image is required") else None
  }

  function StockError(stock: Option<int>): Option<string> {
    if stock.GetOr(0) < 0 then Some("Stock cannot be negative") else None
  }

  /** The present messages, in order. */
  function Messages(errors: seq<Option<string>>): (r: seq<string>)
    ensures |r| == 0 <==> forall i :: 0 <= i < |errors| ==> errors[i].None?
  {
    if |errors| == 0 then []
    else (if errors[0].Some? then [errors[0].value] else []) + Messages(errors[1..])
  }

  /** Every path passes exactly when the input is acceptable. */
  lemma NoErrorsIffAcceptable(input: ProductInput)
    ensures
      && NameError(input.name).None? && CategoryError(input.category).None? && PriceError(input.price).None?
      && DescriptionError(input.description).None? && ImageError(input.image).None? && StockError(input.stock).None?
      <==> Acceptable(input)
  {
    NameErrorIff(input.name);
    CategoryErrorIff(input.category);
    DescriptionErrorIff(input.description);
  }

  /** The `name` path passes exactly when a name is given whose trimmed length is 2..100. */
  lemma NameErrorIff(name: Option<string>)
    ensures NameError(name).None? <==> name.Some? && 2 <= |Trim(name.value)| <= 100
  {
    if name.Some? {
      var t := Trim(name.value);
      assert t == "" <==> |t| == 0;
    }
  }

  lemma CategoryErrorIff(category: Option<string>)
    ensures CategoryError(category).None? <==> category.Some? && category.value in Categories
  {
    if category.Some? && category.value == "" {
      assert "" !in Categories;
    }
  }

  lemma DescriptionErrorIff(description: Option<string>)
    ensures DescriptionError(description).None? <==> description.Some? && 10 <= |description.value| <= 1000
  {
  }

  /** The product an acceptable input creates conforms to the schema. */
  lemma AcceptedInputConforms(input: ProductInput)
    requires Acceptable(input)
    ensures Conforms(Product(Trim(input.name.value), input.category.value, input.price.value, input.description.value,
                             input.image.value, input.stock.GetOr(0), [], 0.0))
  {
    TrimIdempotent(input.name.value);
  }

  /** Validation on save: the new product (no ratings yet, mean 0) or the
      messages of every path that failed. */
  function Validate(input: ProductInput): (r: Result<Product, seq<string>>)
    ensures r.Success? <==> Acceptable(input)
    ensures r.Success? ==>
      && Conforms(r.value)
      && r.value.name == Trim(input.name.value)
      && r.value.category == input.category.value
      && r.value.price == input.price.value
      && r.value.description == input.description.value
      && r.value.image == input.image.value
      && r.value.stock == input.stock.GetOr(0)
      && r.value.ratings == [] && r.value.averageRating == 0.0
    ensures r.Failure? ==> |r.error| >= 1
  {
    var paths := [NameError(input.name), CategoryError(input.category), PriceError(input.price),
                  DescriptionError(input.description), ImageError(input.image), StockError(input.stock)];
    var errors := Messages(paths);
    NoErrorsIffAcceptable(input);
    if |errors| > 0 then
      Failure(errors)
    else
      assert paths[0].None? && paths[1].None? && paths[2].None? && paths[3].None? && paths[4].None? && paths[5].None?;
      AcceptedInputConforms(input);
      Success(Product(Trim(input.name.value), input.category.value, input.price.value, input.description.value,
                      input.image.value, input.stock.GetOr(0), [], 0.0))
  }
}

=== FILE: sequences.dfy ===
/** Order-preserving filtering (the query filter of the catalog listing) and
    stable sorting by a numeric key (shared by the catalog listing and the
    category page). */
module Sequences {

  /** The elements satisfying `f`, in their original order. */
  function Filter<T>(s: seq<T>, f: T -> bool): (r: seq<T>)
    ensures |r| <= |s|
    ensures forall i :: 0 <= i < |r| ==> r[i] in s && f(r[i])
    ensures forall i :: 0 <= i < |s| && f(s[i]) ==> s[i] in r
  {
    if |s| == 0 then []
    else
      assert s == [s[0]] + s[1..];
      if f(s[0]) then [s[0]] + Filter(s[1..], f) else Filter(s[1..], f)
  }

  /** Filtering distributes over concatenation, so it keeps the relative order of
      the elements it retains. */
  lemma {:induction false} FilterAppend<T>(a: seq<T>, b: seq<T>, f: T -> bool)
    ensures Filter(a + b, f) == Filter(a, f) + Filter(b, f)
  {
    if |a| == 0 {
      assert a + b == b;
    } else {
      assert (a + b)[1..] == a[1..] + b;
      FilterAppend(a[1..], b, f);
    }
  }

  /** Every element `f` accepts is kept as many times as it occurs in `s`, and
      every other element not at all. */
  lemma {:induction false} FilterMultiplicity<T>(s: seq<T>, f: T -> bool)
    ensures forall i :: 0 <= i < |s| ==>
      multiset(Filter(s, f))[s[i]] == if f(s[i]) then multiset(s)[s[i]] else 0
  {
    if |s| > 0 {
      var t := s[1..];
      FilterMultiplicity(t, f);
      assert s == [s[0]] + t;
      forall i | 0 <= i < |s|
        ensures multiset(Filter(s, f))[s[i]] == if f(s[i]) then multiset(s)[s[i]] else 0
      {
        var x := s[i];
        assert multiset(Filter(t, f))[x] == if f(x) then multiset(t)[x] else 0 by {
          if x in t {
            var j :| 0 <= j < |t| && t[j] == x;
          } else {
            assert x !in Filter(t, f);
          }
        }
      }
    }
  }

  /** A filter that keeps everything is the identity. */
  lemma {:induction false} FilterAll<T>(s: seq<T>, f: T -> bool)
    requires forall x :: x in s ==> f(x)
    ensures Filter(s, f) == s
  {
    if |s| > 0 {
      FilterAll(s[1..], f);
    }
  }

  /** A filter that keeps nothing yields the empty sequence. */
  lemma {:induction false} FilterNone<T>(s: seq<T>, f: T -> bool)
    requires forall i :: 0 <= i < |s| ==> !f(s[i])
    ensures Filter(s, f) == []
  {
    if |s| > 0 {
      FilterNone(s[1..], f);
    }
  }

  /** Filters with predicates that agree on the elements give the same result. */
  lemma {:induction false} FilterCongruent<T>(s: seq<T>, f: T -> bool, g: T -> bool)
    requires forall i :: 0 <= i < |s| ==> f(s[i]) == g(s[i])
    ensures Filter(s, f) == Filter(s, g)
  {
    if |s| > 0 {
      FilterCongruent(s[1..], f, g);
    }
  }

  /** `s` is non-decreasing by `key`. */
  ghost predicate Sorted<T>(s: seq<T>, key: T -> real) {
    forall i, j :: 0 <= i < j < |s| ==> key(s[i]) <= key(s[j])
  }

  /** Insert `x` before the first element whose key is not smaller, so that `x`
      lands ahead of every element with an equal key. */
  function Insert<T>(x: T, s: seq<T>, key: T -> real): (r: seq<T>)
    ensures multiset(r) == multiset{x} + multiset(s)
  {
    if |s| == 0 then [x]
    else if key(x) <= key(s[0]) then [x] + s
    else
      assert s == [s[0]] + s[1..];
      [s[0]] + Insert(x, s[1..], key)
  }

  /** Inserting into a sorted sequence keeps it sorted. */
  lemma {:induction false} InsertKeepsSorted<T>(x: T, s: seq<T>, key: T -> real)
    requires Sorted(s, key)
    ensures Sorted(Insert(x, s, key), key)
  {
    if |s| > 0 && key(x) > key(s[0]) {
      var t := Insert(x, s[1..], key);
      InsertKeepsSorted(x, s[1..], key);
      assert s == [s[0]] + s[1..];
      forall i | 0 <= i < |t| ensures key(s[0]) <= key(t[i]) {
        assert multiset(t)[t[i]] > 0;
        assert t[i] == x || t[i] in s[1..];
      }
      assert Insert(x, s, key) == [s[0]] + t;
    }
  }

  /** A stable sort of `s` by ascending `key` (insertion sort): the result the
      comparator `(a, b) => key(a) - key(b)` gives with `Array.prototype.sort`. */
  function SortByKey<T>(s: seq<T>, key: T -> real): (r: seq<T>)
    ensures multiset(r) == multiset(s)
    ensures Sorted(r, key)
  {
    if |s| == 0 then []
    else
      assert s == [s[0]] + s[1..];
      InsertKeepsSorted(s[0], SortByKey(s[1..], key), key);
      Insert(s[0], SortByKey(s[1..], key), key)
  }

  /** The elements of `s` whose key is `v`, in their order in `s`. */
  function KeyClass<T>(s: seq<T>, key: T -> real, v: real): seq<T> {
    if |s| == 0 then []
    else if key(s[0]) == v then [s[0]] + KeyClass(s[1..], key, v)
    else KeyClass(s[1..], key, v)
  }

  /** `KeyClass` of a sequence built by prepending one element. */
  lemma KeyClassCons<T>(a: T, t: seq<T>, key: T -> real, v: real)
    ensures key(a) == v ==> KeyClass([a] + t, key, v) == [a] + KeyClass(t, key, v)
    ensures key(a) != v ==> KeyClass([a] + t, key, v) == KeyClass(t, key, v)
  {
    assert ([a] + t)[1..] == t;
  }

  /** Inserting `x` puts it ahead of the elements with its key, and leaves the
      order of every other key's elements alone. */
  lemma {:induction false} InsertKeyClass<T>(x: T, s: seq<T>, key: T -> real, v: real)
    ensures key(x) == v ==> KeyClass(Insert(x, s, key), key, v) == [x] + KeyClass(s, key, v)
    ensures key(x) != v ==> KeyClass(Insert(x, s, key), key, v) == KeyClass(s, key, v)
  {
    if |s| == 0 || key(x) <= key(s[0]) {
      assert Insert(x, s, key) == [x] + s;
      KeyClassCons(x, s, key, v);
    } else {
      var rest := s[1..];
      var t := Insert(x, rest, key);
      assert Insert(x, s, key) == [s[0]] + t;
      assert s == [s[0]] + rest;
      InsertKeyClass(x, rest, key, v);
      KeyClassCons(s[0], t, key, v);
      KeyClassCons(s[0], rest, key, v);
      if key(s[0]) == v {
        // then key(x) > v, so `x` is not in the class
        assert KeyClass(t, key, v) == KeyClass(rest, key, v);
      } else if key(x) == v {
        calc {
          KeyClass([s[0]] + t, key, v);
          KeyClass(t, key, v);
          [x] + KeyClass(rest, key, v);
          [x] + KeyClass(s, key, v);
        }
      }
    }
  }

  /** The sort is stable: the elements sharing a key keep their relative order. */
  lemma {:induction false} SortByKeyIsStable<T>(s: seq<T>, key: T -> real, v: real)
    ensures KeyClass(SortByKey(s, key), key, v) == KeyClass(s, key, v)
  {
    if |s| > 0 {
      SortByKeyIsStable(s[1..], key, v);
      InsertKeyClass(s[0], SortByKey(s[1..], key), key, v);
      KeyClassCons(s[0], s[1..], key, v);
      assert s == [s[0]] + s[1..];
    }
  }

  /** Sorting a sequence that is already sorted changes nothing (the sort is stable). */
  lemma {:induction false} SortSortedIsIdentity<T>(s: seq<T>, key: T -> real)
    requires Sorted(s, key)
    ensures SortByKey(s, key) == s
  {
    if |s| > 0 {
      SortSortedIsIdentity(s[1..], key);
      assert SortByKey(s[1..], key) == s[1..];
      assert s == [s[0]] + s[1..];
      if |s| > 1 {
        assert key(s[0]) <= key(s[1]);
      }
    }
  }
}

=== FILE: server.dfy ===
/** The protected routes as single atomic steps over the store: the gate runs
    first, then the handler, and the handler's result is committed. */
module Server {
  import opened Wrappers
  import opened Entities
  import opened AuthGate
  import CartLedger
  import RatingAggregator

  /** A request to one of the protected routes, with its body fields. */
  datatype Request =
    | GetCart
    | AddToCart(itemId: ProductId)
    | RemoveFromCart(itemId: ProductId)
    | UpdateCart(productId: ProductId, quantity: real)
    | ClearCart
    | RateProduct(productId: ProductId, rating: real, review: Option<string>)
    | DeleteProduct(productId: ProductId)

  /** Deleting a product is an admin route; the others need any signed-in user. */
  function RequiredAccess(req: Request): Access {
    if req.DeleteProduct? then AdminOnly else Authenticated
  }

  predicate IsCartRequest(req: Request) {
    req.GetCart? || req.AddToCart? || req.RemoveFromCart? || req.UpdateCart? || req.ClearCart?
  }

  /** A JSON response body. `success` is true exactly for status 200. */
  datatype Body =
    | CartBody(cart: Cart)
    | ProductBody(product: Product)
    | MessageBody(message: string)
    | ErrorBody(error: string)

  datatype Response = Response(status: int, body: Body)

  function Reject(e: Error): Response {
    Response(e.status, ErrorBody(e.message))
  }

  /** The store with user `id`'s cart replaced. */
  function WithCart(s: Store, id: UserId, cart: Cart): Store
    requires id in s.users
  {
    s.(users := s.users[id := s.users[id].(cartData := cart)])
  }

  /** Commit a cart edit and answer with the whole stored cart, or answer the error. */
  function CommitCart(s: Store, id: UserId, r: Result<Cart, Error>): (Store, Response)
    requires id in s.users
  {
    match r
    case Failure(e) => (s, Reject(e))
    case Success(c) => (WithCart(s, id, c), Response(200, CartBody(c)))
  }

  /** The handler of `req` for the signed-in user `id`. */
  function Dispatch(s: Store, id: UserId, req: Request, now: int): (Store, Response)
    requires id in s.users
  {
    var products := s.products.Keys;
    var cart := s.users[id].cartData;
    match req
    case GetCart => (s, Response(200, CartBody(CartLedger.GetCart(products, cart))))
    case AddToCart(item) => CommitCart(s, id, CartLedger.AddToCart(products, cart, item))
    case RemoveFromCart(item) => CommitCart(s, id, CartLedger.RemoveFromCart(products, cart, item))
    case UpdateCart(item, quantity) => CommitCart(s, id, CartLedger.UpdateCart(products, cart, item, quantity))
    case ClearCart => (WithCart(s, id, CartLedger.ClearCart(cart)), Response(200, MessageBody("Cart cleared successfully")))
    case RateProduct(pid, rating, review) =>
      (match RatingAggregator.Rate(s.products, pid, id, rating, review, now)
       case Failure(e) => (s, Reject(e))
       case Success(p) => (s.(products := s.products[pid := p]), Response(200, ProductBody(p))))
    case DeleteProduct(pid) =>
      if pid in s.products then (s.(products := s.products - {pid}), Response(200, MessageBody("Product deleted successfully")))
      else (s, Reject(ProductNotFound))
  }

  /** One request, end to end. `resolve` verifies the token and `now` is the
      clock the rating handler stamps. A request the gate refuses never reaches
      its handler: 401 when the caller is not authenticated, 403 when an admin
      route is called by a customer, and the store is untouched. Every other
      failure is a handler's 400 or 404, which also leaves the store untouched. */
  function Handle(s: Store, token: string, req: Request, resolve: string -> Option<UserId>, now: int): (out: (Store, Response))
    ensures out.1.status == 401 <==> Authenticate(s.users, token, resolve).Failure?
    ensures out.1.status == 403 <==>
      && Authenticate(s.users, token, resolve).Success?
      && RequiredAccess(req) == AdminOnly
      && s.users[Authenticate(s.users, token, resolve).value].role != Admin
    ensures out.1.status != 200 ==> out.0 == s
    ensures out.1.status in {200, 400, 401, 403, 404}
  {
    match Authorize(s.users, token, resolve, RequiredAccess(req))
    case Failure(e) => (s, Reject(e))
    case Success(id) => Dispatch(s, id, req, now)
  }

  /** The store invariant: emails are unique, every cart holds whole,
      non-negative quantities, and every product keeps one rating per user with
      values in 1..5 and the exact mean as its average. */
  ghost predicate Valid(s: Store) {
    && EmailsUnique(s.users)
    && (forall id :: id in s.users ==> CartLedger.NonNegative(s.users[id].cartData))
    && (forall id :: id in s.users ==> CartLedger.WholeQuantities(s.users[id].cartData))
    && (forall pid :: pid in s.products ==> RatingAggregator.WellRated(s.products[pid]))
  }

  /** The request stores no fractional quantity: it is not an `/updatecart`
      with a quantity that is not a whole number. */
  predicate WholeRequest(req: Request) {
    req.UpdateCart? ==> CartLedger.IsWhole(req.quantity)
  }

  /** Every request with whole quantities keeps the store invariant. An
      `/updatecart` with a fractional quantity that succeeds breaks it, since
      the code stores the fraction. */
  lemma HandlePreservesValid(s: Store, token: string, req: Request, resolve: string -> Option<UserId>, now: int)
    requires Valid(s)
    ensures WholeRequest(req) ==> Valid(Handle(s, token, req, resolve, now).0)
    ensures !WholeRequest(req) && Handle(s, token, req, resolve, now).1.status == 200 ==>
      !Valid(Handle(s, token, req, resolve, now).0)
  {
    var auth := Authorize(s.users, token, resolve, RequiredAccess(req));
    if auth.Success? {
      var id := auth.value;
      var cart := s.users[id].cartData;
      var products := s.products.Keys;
      match req {
        case GetCart =>
        case AddToCart(item) =>
          CartLedger.WholeCartsStayNonNegative(products, cart, item, 0.0);
          CommitPreservesValid(s, id, CartLedger.AddToCart(products, cart, item));
        case RemoveFromCart(item) =>
          CartLedger.WholeCartsStayNonNegative(products, cart, item, 0.0);
          CommitPreservesValid(s, id, CartLedger.RemoveFromCart(products, cart, item));
        case UpdateCart(item, quantity) =>
          var r := CartLedger.UpdateCart(products, cart, item, quantity);
          CartLedger.WholeCartsStayNonNegative(products, cart, item, quantity);
          if CartLedger.IsWhole(quantity) {
            CommitPreservesValid(s, id, r);
          } else if r.Success? {
            var t := WithCart(s, id, r.value);
            assert t.users[id].cartData == r.value;
            assert !CartLedger.WholeQuantities(r.value);
          }
        case ClearCart =>
          CommitPreservesValid(s, id, Success(CartLedger.ClearCart(cart)));
        case RateProduct(pid, rating, review) =>
          var r := RatingAggregator.Rate(s.products, pid, id, rating, review, now);
          if r.Success? {
            RatingAggregator.RatePreservesWellRated(s.products, pid, id, rating, review, now);
            ProductWritePreservesValid(s, pid, r.value);
          }
        case DeleteProduct(pid) =>
      }
    }
  }

  /** Committing a cart of whole, non-negative quantities keeps the invariant. */
  lemma CommitPreservesValid(s: Store, id: UserId, r: Result<Cart, Error>)
    requires Valid(s) && id in s.users
    requires r.Success? ==> CartLedger.NonNegative(r.value) && CartLedger.WholeQuantities(r.value)
    ensures Valid(CommitCart(s, id, r).0)
  {
    if r.Success? {
      var t := WithCart(s, id, r.value);
      assert forall u :: u in t.users ==> t.users[u].email == s.users[u].email;
    }
  }

  /** Writing a well-rated product keeps the invariant. */
  lemma ProductWritePreservesValid(s: Store, pid: ProductId, p: Product)
    requires Valid(s) && RatingAggregator.WellRated(p)
    ensures Valid(s.(products := s.products[pid := p]))
  {
  }

  /** A cart request changes at most the caller's own cart: the products, the
      other users and the caller's other fields stay as they were. Reading the
      cart changes nothing. */
  lemma CartRequestsAreIsolated(s: Store, token: string, req: Request, resolve: string -> Option<UserId>, now: int)
    requires IsCartRequest(req)
    ensures var t := Handle(s, token, req, resolve, now).0;
      && t.products == s.products
      && t.users.Keys == s.users.Keys
      && forall id :: id in s.users ==>
           t.users[id].(cartData := s.users[id].cartData) == s.users[id]
           && (t.users[id].cartData != s.users[id].cartData ==> Authenticate(s.users, token, resolve) == Success(id))
    ensures req.GetCart? ==> Handle(s, token, req, resolve, now).0 == s
  {
    if req.GetCart? {
      ReadingTheCartChangesNothing(s, token, resolve, now);
    }
  }

  /** `/getcart` only reads the store. */
  lemma ReadingTheCartChangesNothing(s: Store, token: string, resolve: string -> Option<UserId>, now: int)
    ensures Handle(s, token, GetCart, resolve, now).0 == s
  {
  }

  /** A rating request changes at most the rated product. */
  lemma RateRequestsAreIsolated(s: Store, token: string, pid: ProductId, rating: real, review: Option<string>,
                                resolve: string -> Option<UserId>, now: int)
    ensures var t := Handle(s, token, RateProduct(pid, rating, review), resolve, now).0;
      && t.users == s.users
      && t.products.Keys == s.products.Keys
      && forall other :: other in s.products && other != pid ==> t.products[other] == s.products[other]
  {
  }

  /** Deleting a product leaves references to it in stored carts, but the cart
      a user reads back no longer shows it. */
  lemma DeletedProductsLeaveCartView(s: Store, adminToken: string, pid: ProductId, userToken: string,
                                     resolve: string -> Option<UserId>, now: int)
    requires Handle(s, adminToken, DeleteProduct(pid), resolve, now).1.status == 200
    ensures var t := Handle(s, adminToken, DeleteProduct(pid), resolve, now).0;
      && t.users == s.users
      && pid !in t.products
      && var reply := Handle(t, userToken, GetCart, resolve, now).1;
         reply.body.CartBody? ==> pid !in reply.body.cart
  {
  }
}

=== FILE: shop_category.dfy ===
/** The storefront's category page: the products of one category, sorted,
    cut into pages of 12, with Previous/Next navigation. */
module ShopCategory {
  import opened Wrappers
  import opened Text
  import opened Sequences
  import opened Paging

  const ProductsPerPage: nat := 12

  /** An entry of the client-side product list. An empty `category` stands for a
      missing one; a missing `price` is `None`. */
  datatype Item = Item(id: int, name: string, category: string, price: Option<real>)

  /** The sort menu choices modelled here. */
  datatype SortBy = Default | PriceLow | PriceHigh

  /** `item.price || 0`. */
  function PriceOf(item: Item): real {
    item.price.GetOr(0.0)
  }

  /** The filter test: a present entry with a non-empty category equal to the
      page's category after lower-casing both. */
  predicate InCategory(entry: Option<Item>, category: string) {
    entry.Some? && entry.value.category != "" && EqualsIgnoreCase(entry.value.category, category)
  }

  /** `filteredProducts`: the entries of the page's category, in list order. */
  function FilterCategory(products: seq<Option<Item>>, category: string): (r: seq<Item>)
    ensures |r| <= |products|
    ensures forall i :: 0 <= i < |r| ==> Some(r[i]) in products && InCategory(Some(r[i]), category)
    ensures forall i :: 0 <= i < |products| && InCategory(products[i], category) ==> products[i].value in r
  {
    if |products| == 0 then []
    else
      assert products == [products[0]] + products[1..];
      (if InCategory(products[0], category) then [products[0].value] else []) + FilterCategory(products[1..], category)
  }

  /** The category filter distributes over concatenation: kept entries keep
      their relative order. */
  lemma {:induction false} FilterCategoryAppend(a: seq<Option<Item>>, b: seq<Option<Item>>, category: string)
    ensures FilterCategory(a + b, category) == FilterCategory(a, category) + FilterCategory(b, category)
  {
    if |a| == 0 {
      assert a + b == b;
    } else {
      assert (a + b)[0] == a[0];
      assert (a + b)[1..] == a[1..] + b;
      FilterCategoryAppend(a[1..], b, category);
    }
  }

  /** `sortProducts`: the stable sort `Array.prototype.sort` performs with the
      price comparators, or the filtered order itself by default. */
  function SortProducts(items: seq<Item>, sortBy: SortBy): (r: seq<Item>)
    ensures multiset(r) == multiset(items)
    ensures sortBy == Default ==> r == items
    ensures sortBy == PriceLow ==> forall i, j :: 0 <= i < j < |r| ==> PriceOf(r[i]) <= PriceOf(r[j])
    ensures sortBy == PriceHigh ==> forall i, j :: 0 <= i < j < |r| ==> PriceOf(r[i]) >= PriceOf(r[j])
  {
    match sortBy
    case Default => items
    case PriceLow => SortByKey(items, PriceOf)
    case PriceHigh =>
      var r := SortByKey(items, NegatedPrice);
      assert forall i, j :: 0 <= i < j < |r| ==> NegatedPrice(r[i]) <= NegatedPrice(r[j]);
      r
  }

  /** The sort key of `price-high`: the comparator `(b.price || 0) - (a.price || 0)`
      orders by ascending negated price. */
  function NegatedPrice(item: Item): real {
    -PriceOf(item)
  }

  /** The products of price `v`, in their order in `items`. */
  function SamePrice(items: seq<Item>, v: real): seq<Item> {
    KeyClass(items, PriceOf, v)
  }

  /** `Array.prototype.sort` is stable: under every sort choice, products with
      equal prices keep the relative order they had in the filtered list. */
  lemma SortProductsIsStable(items: seq<Item>, sortBy: SortBy, v: real)
    ensures SamePrice(SortProducts(items, sortBy), v) == SamePrice(items, v)
  {
    SortProductsCases(items);
    match sortBy
    case Default =>
    case PriceLow => SortByKeyIsStable(items, PriceOf, v);
    case PriceHigh => HighToLowIsStable(items, v);
  }

  /** Sorting by negated price keeps each price's products in order. */
  lemma HighToLowIsStable(items: seq<Item>, v: real)
    ensures KeyClass(SortByKey(items, NegatedPrice), PriceOf, v) == KeyClass(items, PriceOf, v)
  {
    var r := SortByKey(items, NegatedPrice);
    SortByKeyIsStable(items, NegatedPrice, -v);
    NegatedPriceClass(r, v);
    NegatedPriceClass(items, v);
  }

  /** The price sorts are the stable sort by price and by negated price. */
  lemma SortProductsCases(items: seq<Item>)
    ensures SortProducts(items, PriceLow) == SortByKey(items, PriceOf)
    ensures SortProducts(items, PriceHigh) == SortByKey(items, NegatedPrice)
  {
  }

  /** Grouping by negated price groups by price. */
  lemma {:induction false} NegatedPriceClass(s: seq<Item>, v: real)
    ensures KeyClass(s, NegatedPrice, -v) == KeyClass(s, PriceOf, v)
  {
    if |s| > 0 {
      NegatedPriceClass(s[1..], v);
    }
  }

  /** A list already in the chosen price order is shown as it is. */
  lemma {:induction false} PriceOrderedListIsKept(items: seq<Item>, sortBy: SortBy)
    requires sortBy == PriceLow ==> forall i, j :: 0 <= i < j < |items| ==> PriceOf(items[i]) <= PriceOf(items[j])
    requires sortBy == PriceHigh ==> forall i, j :: 0 <= i < j < |items| ==> PriceOf(items[i]) >= PriceOf(items[j])
    ensures SortProducts(items, sortBy) == items
  {
    match sortBy
    case Default =>
    case PriceLow => SortSortedIsIdentity(items, PriceOf);
    case PriceHigh =>
      assert Sorted(items, NegatedPrice) by {
        forall i, j | 0 <= i < j < |items| ensures NegatedPrice(items[i]) <= NegatedPrice(items[j]) {
          assert PriceOf(items[i]) >= PriceOf(items[j]);
        }
      }
      SortSortedIsIdentity(items, NegatedPrice);
  }

  /** `Math.ceil(sortedProducts.length / productsPerPage)`. */
  function TotalPages(n: nat): (r: nat)
    ensures r * ProductsPerPage >= n && (r - 1) * ProductsPerPage < n
  {
    PageCount(n, ProductsPerPage)
  }

  /** `currentProducts`: `sortedProducts.slice(indexOfFirstProduct, indexOfLastProduct)`. */
  function CurrentProducts(sorted: seq<Item>, page: int): (r: seq<Item>)
    ensures page >= 1 ==> r == Window(sorted, page, ProductsPerPage) && |r| <= ProductsPerPage
  {
    var last := page * ProductsPerPage;
    var first := last - ProductsPerPage;
    assert page >= 1 ==> first == (page - 1) * ProductsPerPage <= last;
    JsSlice(sorted, first, last)
  }

  /** Pages 1 to `TotalPages` are all non-empty, and together they list every
      sorted product once, in order. */
  lemma PagesPartitionSorted(sorted: seq<Item>)
    ensures forall p :: 1 <= p <= TotalPages(|sorted|) ==> |CurrentProducts(sorted, p)| > 0
    ensures Pages(sorted, ProductsPerPage, TotalPages(|sorted|)) == sorted
  {
    forall p | 1 <= p <= TotalPages(|sorted|) ensures |CurrentProducts(sorted, p)| > 0 {
      WindowNonEmpty(sorted, p, ProductsPerPage);
    }
    AllPagesCover(sorted, ProductsPerPage);
  }

  /** An in-range page of a non-empty list shows at least one product, and the
      range it announces lies within the list. */
  lemma PageInRangeShowsProducts(sorted: seq<Item>, page: int)
    requires |sorted| > 0
    ensures 1 <= page <= Max(1, TotalPages(|sorted|)) ==>
      && |CurrentProducts(sorted, page)| > 0
      && 1 <= ShownRange(|sorted|, page).0 <= ShownRange(|sorted|, page).1 <= |sorted|
  {
    PagesPartitionSorted(sorted);
  }

  /** The "Showing a-b out of n" line: `indexOfFirstProduct + 1` to
      `Math.min(indexOfLastProduct, n)`. */
  function ShownRange(n: nat, page: int): (range: (int, int))
    ensures n > 0 && 1 <= page <= TotalPages(n) ==> 1 <= range.0 <= range.1 <= n
  {
    var last := page * ProductsPerPage;
    var first := last - ProductsPerPage;
    assert 1 <= page <= TotalPages(n) ==> (page - 1) * ProductsPerPage < n;
    (first + 1, Min(last, n))
  }

  /** The range shown names exactly the products on the page. */
  lemma ShownRangeCountsPage(sorted: seq<Item>, page: int)
    requires |sorted| > 0 && 1 <= page <= TotalPages(|sorted|)
    ensures var range := ShownRange(|sorted|, page);
      range.1 - range.0 + 1 == |CurrentProducts(sorted, page)|
      && CurrentProducts(sorted, page) == sorted[range.0 - 1..range.1]
  {
    assert (page - 1) * ProductsPerPage < |sorted|;
    assert page * ProductsPerPage - ProductsPerPage == (page - 1) * ProductsPerPage;
  }

  /** The Previous button: `Math.max(prev - 1, 1)`. */
  function Previous(page: int): (r: int)
    ensures r >= 1
    ensures page >= 2 ==> r == page - 1
    ensures page <= 1 ==> r == 1
  {
    Max(page - 1, 1)
  }

  /** The Next button: `Math.min(prev + 1, totalPages)`. */
  function Next(page: int, totalPages: int): (r: int)
    ensures r <= totalPages
    ensures page < totalPages ==> r == page + 1
    ensures 1 <= page <= totalPages ==> 1 <= r <= totalPages
    ensures page >= totalPages ==> r == totalPages
  {
    Min(page + 1, totalPages)
  }

  /** The page's state: the route's category, the sort choice and the current page. */
  datatype PageState = PageState(category: string, sortBy: SortBy, page: int)

  /** What a visitor can do: open another category, pick a sort, or press one of
      the pagination buttons (`Jump(i)` is the button labelled `i + 1`). */
  datatype Event = SelectCategory(category: string) | SelectSort(sortBy: SortBy) | Prev | Next | Jump(index: nat)

  /** The number of pages of the current category. */
  function PageCountOf(products: seq<Option<Item>>, category: string): nat {
    TotalPages(|FilterCategory(products, category)|)
  }

  /** The state after an event. A change of category resets the page to 1; the
      pagination buttons exist only while there is more than one page. */
  function Step(products: seq<Option<Item>>, st: PageState, ev: Event): (r: PageState)
    ensures ev.SelectCategory? && ev.category != st.category ==> r == PageState(ev.category, st.sortBy, 1)
    ensures ev.SelectSort? ==> r == st.(sortBy := ev.sortBy)
    ensures !ev.SelectCategory? && !ev.SelectSort? ==> r.category == st.category && r.sortBy == st.sortBy
    ensures PageCountOf(products, st.category) <= 1 && !ev.SelectCategory? && !ev.SelectSort? ==> r == st
    ensures PageCountOf(products, st.category) > 1 ==>
      && (ev.Prev? ==> r == st.(page := Previous(st.page)))
      && (ev.Next? ==> r == st.(page := Next(st.page, PageCountOf(products, st.category))))
      && (ev.Jump? ==> r == if ev.index < PageCountOf(products, st.category) then st.(page := ev.index + 1) else st)
  {
    var total := PageCountOf(products, st.category);
    match ev
    case SelectCategory(c) => if c != st.category then PageState(c, st.sortBy, 1) else st
    case SelectSort(s) => st.(sortBy := s)
    case Prev => if total > 1 then st.(page := Previous(st.page)) else st
    case Next => if total > 1 then st.(page := Next(st.page, total)) else st
    case Jump(i) => if total > 1 && i < total then st.(page := i + 1) else st
  }

  /** The current page lies in 1 to the page count (1 when there are no pages). */
  predicate PageInRange(products: seq<Option<Item>>, st: PageState) {
    1 <= st.page <= Max(1, PageCountOf(products, st.category))
  }

  /** Once in range, the page stays in range whatever the visitor does. */
  lemma StepKeepsPageInRange(products: seq<Option<Item>>, st: PageState, ev: Event)
    requires PageInRange(products, st)
    ensures PageInRange(products, Step(products, st, ev))
  {
  }

  /** What the page shows. */
  datatype View =
    | Loading
    | EmptyCategory
    | Grid(shownFrom: int, shownTo: int, count: nat, items: seq<Item>, controls: bool)

  /** The rendered page: a loading note before the product list arrives, the
      empty state when the category has no products, else the grid. */
  function Render(allProducts: Option<seq<Option<Item>>>, st: PageState): (v: View)
    ensures allProducts.None? <==> v == Loading
    ensures allProducts.Some? ==> (v == EmptyCategory <==> |FilterCategory(allProducts.value, st.category)| == 0)
    ensures v.Grid? ==> (v.controls <==> PageCountOf(allProducts.value, st.category) > 1)
    ensures v.Grid? ==> v.count == |FilterCategory(allProducts.value, st.category)|
    ensures v.Grid? ==> |v.items| <= ProductsPerPage
    ensures v.Grid? && st.page >= 1 ==>
      v.items == Window(SortProducts(FilterCategory(allProducts.value, st.category), st.sortBy), st.page, ProductsPerPage)
    ensures v.Grid? ==> (v.shownFrom, v.shownTo) == ShownRange(v.count, st.page)
    ensures v.Grid? && PageInRange(allProducts.value, st) ==> 1 <= v.shownFrom <= v.shownTo <= v.count && |v.items| > 0
  {
    match allProducts
    case None => Loading
    case Some(products) =>
      var filtered := FilterCategory(products, st.category);
      if |filtered| == 0 then EmptyCategory
      else
        var sorted := SortProducts(filtered, st.sortBy);
        assert |sorted| == |filtered| by {
          assert |multiset(sorted)| == |multiset(filtered)|;
        }
        var range := ShownRange(|sorted|, st.page);
        var items := CurrentProducts(sorted, st.page);
        PageInRangeShowsProducts(sorted, st.page);
        Grid(range.0, range.1, |sorted|, items, TotalPages(|sorted|) > 1)
  }
}

=== FILE: text.dfy ===
/** String helpers the server and the storefront page rely on. Case mapping is
    restricted to ASCII letters. */
module Text {

  /** `String.prototype.toLowerCase` on one character (ASCII letters only). */
  function LowerChar(c: char): char {
    if 'A' <= c <= 'Z' then (c as int + 32) as char else c
  }

  /** `String.prototype.toLowerCase` on ASCII text. */
  function Lower(s: string): (r: string)
    ensures |r| == |s|
  {
    seq(|s|, i requires 0 <= i < |s| => LowerChar(s[i]))
  }

  /** Equality after lower-casing both sides. */
  predicate EqualsIgnoreCase(a: string, b: string) {
    Lower(a) == Lower(b)
  }

  /** `needle` occurs in `hay` starting at index `i`. */
  predicate OccursAt(hay: string, needle: string, i: int) {
    0 <= i && i + |needle| <= |hay| && hay[i..i + |needle|] == needle
  }

  /** `needle` is a literal substring of `hay`. */
  predicate Contains(hay: string, needle: string) {
    exists i | 0 <= i <= |hay| - |needle| :: OccursAt(hay, needle, i)
  }

  /** Case-insensitive literal substring search (a `$regex` with option `i`
      whose pattern has no metacharacters). */
  predicate ContainsIgnoreCase(hay: string, needle: string) {
    Contains(Lower(hay), Lower(needle))
  }

  /** The characters `String.prototype.trim` removes: ECMAScript WhiteSpace
      (including the Unicode space separators) and LineTerminator. */
  predicate IsSpace(c: char) {
    || c == ' ' || c == '\t' || c == '\n' || c == '\r' || c == '\U{B}' || c == '\U{C}'
    || c == '\U{A0}' || c == '\U{1680}' || '\U{2000}' <= c <= '\U{200A}'
    || c == '\U{2028}' || c == '\U{2029}' || c == '\U{202F}' || c == '\U{205F}'
    || c == '\U{3000}' || c == '\U{FEFF}'
  }

  /** Remove leading white space. */
  function TrimStart(s: string): (r: string)
    ensures |r| <= |s|
    ensures r == s[|s| - |r|..]
    ensures |r| > 0 ==> !IsSpace(r[0])
    ensures forall i :: 0 <= i < |s| - |r| ==> IsSpace(s[i])
  {
    if |s| > 0 && IsSpace(s[0]) then TrimStart(s[1..]) else s
  }

  /** Remove trailing white space. */
  function TrimEnd(s: string): (r: string)
    ensures |r| <= |s|
    ensures r == s[..|r|]
    ensures |r| > 0 ==> !IsSpace(r[|r| - 1])
    ensures forall i :: |r| <= i < |s| ==> IsSpace(s[i])
  {
    if |s| > 0 && IsSpace(s[|s| - 1]) then TrimEnd(s[..|s| - 1]) else s
  }

  /** `String.prototype.trim`. */
  function Trim(s: string): string {
    TrimEnd(TrimStart(s))
  }
}

=== FILE: wrappers.dfy ===
/** Failure-compatible result types shared by every module of the storefront model. */
module Wrappers {

  /** An optional value: a request field or stored attribute that may be absent. */
  datatype Option<+T> = None | Some(value: T) {

    /** The value, or `default` when absent (the `x || default` idiom of the server). */
    function GetOr(default: T): T {
      match this
      case Some(v) => v
      case None => default
    }
  }

  /** The outcome of a handler: a value, or the error response it sends instead. */
  datatype Result<+T, +E> = Success(value: T) | Failure(error: E) {

    predicate IsFailure() {
      Failure?
    }

    function PropagateFailure<U>(): Result<U, E>
      requires Failure?
    {
      Failure(error)
    }

    function Extract(): T
      requires Success?
    {
      value
    }
  }
}
